=== FILE: README.md ===
# Photo Organiser Pro: a Dafny model of the backend run

Photo Organiser Pro's backend runs once and then exits. Each run goes through a list of
holding pairs. A pair is a source directory, an archive directory and a review directory.

For every file under a source directory outside the review directory, the run does one
of three things:

- It archives the file. Media files (`raf`, `jpeg`, `jpg`, `mov`, `mp4`, any letter case)
  are dated from their embedded tags and copied to `{dest}/Y/M/D/Y-M-D_{device}_{name}`.
  The copy is checked by MD5 and then the original is deleted.
- It deletes the file. This applies to `aae` sidecars.
- It queues the file for review. This applies to every other file, and to media files
  with no date.

At the end of a pair, the queued files are moved the same copy-verify-delete way into
`{review}/{run timestamp}/{name}`. Every step is logged. The log is written to the log
file when the run ends.

The model is one Dafny module per concern:

| module | file | what it holds |
|---|---|---|
| `Wrappers`, `Text` | `text.dfy` | `Option`. The .NET string operations the program relies on: `Split` (keeps empty pieces), the last segment, ASCII `ToLower`, character `Replace`, ordinal `Contains`, decimal digits, `IndexOf`. |
| `Log` | `log.dfy` | The log-line taxonomy as events. |
| `Classifier` | `classifier.dfy` | Extension and the archive / discard / review decision. |
| `MetadataReader` | `metadata.dfy` | The three date tiers ("Date/Time Original", "Creation Date", "Created"), plus make and model. |
| `DestinationNamer` | `namer.dfy` | Device tag, archive path, review path. |
| `Relocator` | `relocator.dfy` | Copy, checksum both files, delete on a match, for the archive order and the review order. |
| `Orchestrator` | `orchestrator.dfy` | The file loop, the review flush, the pair loop, the empty check, the whole run. |

The file system is a finite map from paths to byte strings. Three things are parameters
of the run, together with the current time:

- the recursive directory listing;
- the metadata library, which maps a file's bytes to its tags, a caught IOException, or
  an uncaught rejection;
- the copy device, which decides whether a copy of an existing file to another path
  raises, and supplies the digest function.

An exception the program does not catch is modelled as a `crashed` state. Nothing happens
after a crash. In particular, the log lines of the run are never written, because the
program writes the log only at the very end.

## Behaviour of Program.cs worth knowing

The model follows Program.cs as written, including these points:

- **Last match wins.** The tag loop at lines 155-182 overwrites on every match, so the
  last "Date/Time Original", "Make" or "Model" tag decides the value. The "Creation Date"
  and "Created" loops (lines 186-207 and 211-233) also overwrite on every match. See
  `MetadataReader.ScanTagsLastWins`, `LaterMakeOverrides`, `LaterOriginalOverrides` and
  `ScanTextualLastWins`.
- **Year positions differ by tag.** Line 195 takes the year of a "Creation Date" from
  token 5 (zero-based), and line 222 takes the year of a "Created" tag from token 4.
  A five-token "Creation Date" such as `Mon Jan 5 10:00:00 2024` therefore indexes out of
  range and ends the run (`MetadataReader.ShortCreationDateUnparsable`). The same text
  under "Created" gives 2024-01-05 (`CreatedExample`).
- **Uncaught exceptions.** Only IOException from the metadata read (line 239) and from the
  two copies (lines 284 and 425) is caught. These escape and end the run:
  - an index out of range in a date parser;
  - a metadata exception other than IOException;
  - `File.OpenRead` of a missing file when checksumming.

  `Orchestrator.RunNeverCrashes` states when none of them can happen.
- **"New file not found" is never logged.** The destination is opened for its checksum
  (lines 301 and 435) before `File.Exists` is tested (lines 310 and 443), so a missing
  destination raises first. The model keeps the branch, and `Relocator.ArchiveRelocate`
  and `ReviewRelocate` prove it is never taken.
- **The settle delay is per pair.** Line 119 sleeps once for every pair, after listing.

Quirks of the code that the model keeps, with the member that states each:

- A one-character "Date/Time Original" day becomes "0" followed by the year:
  `2023:04:5` gives `2023-04-02023` (`MetadataReader.DayPaddedWithYear`).
- An unknown month abbreviation gives month `00` (`MetadataReader.UnknownMonthIsZero`).
- The deletion check asks whether a directory exists at the deleted path, so it reports
  success in any well-formed file system (`Relocator.DeleteCheckAlwaysPasses`).
- A failed copy onto an existing file with the same checksum still deletes the source
  (`Relocator.StaleDestinationAccepted`).
- Two queued files with one name in different folders get one review path. The second
  copy overwrites the first, and both originals are deleted
  (`Orchestrator.ReviewNameCollision`).
- The archive branch loses files the same way. Two media files with one name in different
  folders, from one device on one day, get one archive path. The second copy overwrites
  the first, and both originals are deleted (`Orchestrator.ArchiveNameCollision` and
  `ArchiveLoopCollision`).
- The review path's `Replace("//", "/")` result is discarded, so a doubled '/' stays
  (`DestinationNamer.ReviewPathKeepsDoubleSlash`).

## Model

| member | source | states |
|---|---|---|
| Text.Split | Photo-Org-Backend/Source/Program.cs:131 | `String.Split` on one character always gives at least one piece. |
| Text.JoinSplit | Photo-Org-Backend/Source/Program.cs:162 | Joining the pieces of a split with the separator gives back the original string. |
| Text.SplitJoin | Photo-Org-Backend/Source/Program.cs:195-197 | Splitting the join of separator-free pieces gives back the pieces. This is how the tokens of a textual date are recovered. |
| Text.SplitPiecesLackSeparator | Photo-Org-Backend/Source/Program.cs:131 | No piece of a split holds the separator. |
| Text.LastSegment | Photo-Org-Backend/Source/Program.cs:131 | The last piece of a split contains no separator. |
| Text.LastSegmentAfterSeparator | Photo-Org-Backend/Source/Program.cs:143 | The last segment of `x + sep + y`, with y free of the separator, is y. |
| Text.Lower | Photo-Org-Backend/Source/Program.cs:131 | ASCII `ToLower` keeps the length and folds each character on its own. |
| Text.LowerIdempotent | Photo-Org-Backend/Source/Program.cs:131 | Lower-casing twice is lower-casing once. |
| Text.SplitLower | Photo-Org-Backend/Source/Program.cs:131 | For a separator that is not a letter, splitting the lower-cased string gives the original's pieces, each lower-cased. |
| Text.ReplaceChar | Photo-Org-Backend/Source/Program.cs:175 | `Replace` of one character keeps the length. Every occurrence becomes the replacement, and every other position is unchanged. |
| Text.ReplaceCharAbsent | Photo-Org-Backend/Source/Program.cs:255 | Replacing a character that does not occur changes nothing. |
| Text.ContainsPrefix | Photo-Org-Backend/Source/Program.cs:124 | A string contains every one of its prefixes (ordinal `Contains`). |
| Text.IndexOf | Photo-Org-Backend/Source/Program.cs:196 | `List.IndexOf` is -1 exactly when the item is absent; otherwise it is the first position holding the item. |
| Text.NatToString | Photo-Org-Backend/Source/Program.cs:196 | `ToString` of a natural gives decimal digits whose value is that natural. It is one digit exactly below 10. |
| Classifier.Extension | Photo-Org-Backend/Source/Program.cs:131 | The extension is a lower-cased suffix of the path with no '.' and no upper-case letter. |
| Classifier.ExtensionAfterLastDot | Photo-Org-Backend/Source/Program.cs:131 | The extension starts right after the LAST '.': it is preceded by a '.' unless it is the whole path, and a path without '.' is its own extension, lower-cased. |
| Classifier.ExtensionOfName | Photo-Org-Backend/Source/Program.cs:131 | The extension of `stem.ext` is `ext` lower-cased, whatever the stem holds. |
| Classifier.ExtensionOfLowered | Photo-Org-Backend/Source/Program.cs:131 | Lower-casing the whole path leaves its extension unchanged. |
| Classifier.ClassifyIgnoresCase | Photo-Org-Backend/Source/Program.cs:131 | Paths equal up to case are classified alike. |
| Classifier.ClassifyByExtension | Photo-Org-Backend/Source/Program.cs:131-380 | For each of archive, discard and review, the file goes that way exactly when its lower-cased extension is in the matching list and in no earlier one. |
| Classifier.JpegAnyCaseArchived | Photo-Org-Backend/Source/Program.cs:131 | `.JPG`, `.Jpg` and `.jpg` files are all archived. |
| Classifier.SidecarDiscardedOtherReviewed | Photo-Org-Backend/Source/Program.cs:363-380 | An `.AAE` sidecar is deleted and a `.png` goes to review. |
| Classifier.DotInDirectoryOnly | Photo-Org-Backend/Source/Program.cs:131 | A '.' in a directory name serves as the extension of a file without one, and that file goes to review. |
| MetadataReader.Hyphenate | Photo-Org-Backend/Source/Program.cs:173-180 | `Replace(" ", "-")`: every space becomes '-', every other character is kept, and the length is unchanged. |
| MetadataReader.LastIndex | Photo-Org-Backend/Source/Program.cs:155-182 | The position of the last tag with a given name, or -1 exactly when there is none. |
| MetadataReader.OriginalDate | Photo-Org-Backend/Source/Program.cs:162-171 | The tier-1 date always holds the '-' separator. |
| MetadataReader.ScanTagsLastWins | Photo-Org-Backend/Source/Program.cs:155-182 | In the first tag loop, the last "Date/Time Original", "Make" and "Model" tags set the date, make and model. With no such tag, the earlier value stays. |
| MetadataReader.MonthNumber | Photo-Org-Backend/Source/Program.cs:193-196 | The month number is 1 to 12 for a known abbreviation, at that position in the table, and 0 exactly for an unknown one. |
| MetadataReader.MonthField | Photo-Org-Backend/Source/Program.cs:196-201 | The month field is two digits whose value is the month number. |
| MetadataReader.TextualDate | Photo-Org-Backend/Source/Program.cs:195-206 | A textual-tier date always holds the '-' separator. |
| MetadataReader.ScanTextualLastWins | Photo-Org-Backend/Source/Program.cs:187-209 | In a textual tier, the last tag with the tier's name sets the date. With no such tag, the date stays. |
| MetadataReader.ReadCapture | Photo-Org-Backend/Source/Program.cs:155-237 | The date is "" exactly when none of the three date tags occurs. Otherwise it comes from the last tag of the first tier present. Make and model come from the last "Make" and "Model" tags, hyphenated, or are "". |
| MetadataReader.FirstToken | Photo-Org-Backend/Source/Program.cs:162 | The first space-separated token of `token + " " + rest` is the token. |
| MetadataReader.ColonFields | Photo-Org-Backend/Source/Program.cs:162 | `Y:M:D` splits on ':' into exactly Y, M and D. |
| MetadataReader.OriginalDateOfFields | Photo-Org-Backend/Source/Program.cs:162-171 | For `Y:M:D rest`: a one-character month gets a leading 0, and a one-character day becomes "0" followed by the year. |
| MetadataReader.TwoDigitOriginalDate | Photo-Org-Backend/Source/Program.cs:162-171 | Two-character month and day fields come out as `Y-M-D`. |
| MetadataReader.DayPaddedWithYear | Photo-Org-Backend/Source/Program.cs:163-166 | `2023:04:5 10:00:00` gives the date `2023-04-02023`. |
| MetadataReader.TextualDateOfTokens | Photo-Org-Backend/Source/Program.cs:195-206 | For space-joined tokens, the date is the year token, then the month number as two digits, then the day token padded to two. |
| MetadataReader.UnknownMonthIsZero | Photo-Org-Backend/Source/Program.cs:196-201 | An abbreviation missing from the month table gives month "00". |
| MetadataReader.JanuaryIsOne | Photo-Org-Backend/Source/Program.cs:193-201 | "Jan" gives month "01". |
| MetadataReader.SingleTextualTag | Photo-Org-Backend/Source/Program.cs:185-237 | A file whose one tag is a "Creation Date" or "Created" tag is dated by that tag, with that tier's year token. |
| MetadataReader.CreatedExample | Photo-Org-Backend/Source/Program.cs:212-237 | A "Created" tag `Mon Jan 5 10:00:00 2024` gives 2024-01-05. |
| MetadataReader.CreationDateExample | Photo-Org-Backend/Source/Program.cs:185-210 | A "Creation Date" tag `Fri Jan 05 10:00:00 +00:00 2024` gives 2024-01-05. |
| MetadataReader.ShortCreationDateUnparsable | Photo-Org-Backend/Source/Program.cs:195 | A five-token "Creation Date" has no year token 5. |
| MetadataReader.LaterMakeOverrides | Photo-Org-Backend/Source/Program.cs:173-176 | A "Make" tag read after all others decides the make. |
| MetadataReader.LaterOriginalOverrides | Photo-Org-Backend/Source/Program.cs:160-185 | A "Date/Time Original" tag read after all others decides the date, whatever the other tiers hold. |
| DestinationNamer.FileName | Photo-Org-Backend/Source/Program.cs:143 | `Path.GetFileName` gives a suffix of the path without '/'. |
| DestinationNamer.FileNameAfterLastSlash | Photo-Org-Backend/Source/Program.cs:143 | The file name starts right after the LAST '/': it is preceded by a '/' unless it is the whole path, and a path without '/' is its own file name. |
| DestinationNamer.DeviceTag | Photo-Org-Backend/Source/Program.cs:248-264 | The device tag is never empty, and it has no space when make and model have none. |
| DestinationNamer.DeviceTagCases | Photo-Org-Backend/Source/Program.cs:248-264 | The four cases: "Unknown-Device", the model alone, the make alone, or `make_model`. |
| DestinationNamer.DeviceTagSplits | Photo-Org-Backend/Source/Program.cs:263 | With both parts present and free of '_', the tag splits back into make and model. |
| DestinationNamer.ArchivePath | Photo-Org-Backend/Source/Program.cs:267-268 | The archive path lies under `{dest}/` and ends in `_` followed by the original name. |
| DestinationNamer.DateDirectoriesOfParts | Photo-Org-Backend/Source/Program.cs:268 | The date `Y-M-D` becomes the nested directories `Y/M/D`. |
| DestinationNamer.ArchivePathLayout | Photo-Org-Backend/Source/Program.cs:267-268 | The archive path is `{dest}/Y/M/D/Y-M-D_{tag}_{name}`. |
| DestinationNamer.ArchiveFileName | Photo-Org-Backend/Source/Program.cs:267-268 | The file name of the archive path is the new file name. |
| DestinationNamer.ArchivePathInjective | Photo-Org-Backend/Source/Program.cs:267-268 | Distinct file names never share an archive path, for one directory, date and tag. The folder is not part of the name, so same-name files from different folders do collide (ArchiveNameCollision). |
| DestinationNamer.ArchivePathNeverSource | Photo-Org-Backend/Source/Program.cs:267-268 | A file is never archived onto its own path. |
| MetadataReader.CanonTagsHyphenated | Photo-Org-Backend/Source/Program.cs:173-180 | The tags "Canon" and "EOS R5" become "Canon" and "EOS-R5". |
| DestinationNamer.CanonArchivePath | Photo-Org-Backend/Source/Program.cs:248-268 | The hyphenated make "Canon" and model "EOS-R5", dated 2023-04-05, put `IMG_01.jpg` at `/archive/2023/04/05/2023-04-05_Canon_EOS-R5_IMG_01.jpg`. |
| DestinationNamer.CanonExample | Photo-Org-Backend/Source/Program.cs:173-268 | From the raw tags "Canon" and "EOS R5", dated 2023-04-05, `IMG_01.jpg` under `/archive` goes to `/archive/2023/04/05/2023-04-05_Canon_EOS-R5_IMG_01.jpg`. |
| DestinationNamer.ReviewPath | Photo-Org-Backend/Source/Program.cs:417-418 | The review path is `{review}/{stamp}/{name}`: the stamp segment is the timestamp with each '/' turned into another character and no '/' left, followed by '/', then the source's file name. A timestamp without '/' is used as it is. |
| DestinationNamer.ReviewPathExcludedFromScan | Photo-Org-Backend/Source/Program.cs:124 | A review destination contains the review directory, so later scans skip it. |
| DestinationNamer.ReviewPathNeverSource | Photo-Org-Backend/Source/Program.cs:417 | A file scanned from outside the review directory is never reviewed onto itself. |
| DestinationNamer.ReviewPathByName | Photo-Org-Backend/Source/Program.cs:417 | The review path depends on the source only through its file name. |
| DestinationNamer.ReviewPathIgnoresFolder | Photo-Org-Backend/Source/Program.cs:417 | One name in two folders gets one review path. |
| DestinationNamer.ReviewPathKeepsDoubleSlash | Photo-Org-Backend/Source/Program.cs:417-418 | A review directory ending in '/' leaves `//` in the path, because the replace's result is discarded. |
| Relocator.Copy | Photo-Org-Backend/Source/Program.cs:280-288 | A copy succeeds exactly when the source exists, differs from the destination, and the device allows it. The destination then holds the source's bytes and nothing else changes. |
| Relocator.Hash | Photo-Org-Backend/Source/Program.cs:291-306 | A checksum exists exactly when the file does, and it is the digest of its bytes. |
| Relocator.DeletionReport | Photo-Org-Backend/Source/Program.cs:320-328 | After a deletion, one of the two removal reports is logged for that path. |
| Relocator.Conclude | Photo-Org-Backend/Source/Program.cs:310-344 | The outcome is verified exactly when the destination exists and the checksums agree. Only then is the source removed. |
| Relocator.ArchiveRelocate | Photo-Org-Backend/Source/Program.cs:280-344 | The archive relocation never ends with "new file not found". Paths other than source and destination are untouched. |
| Relocator.ReviewRelocate | Photo-Org-Backend/Source/Program.cs:404-477 | The review relocation never ends with "new file not found". Paths other than source and destination are untouched. |
| Relocator.DeleteCheckAlwaysPasses | Photo-Org-Backend/Source/Program.cs:320-324 | In a well-formed file system the post-delete check always reports success. |
| Relocator.DeleteCheckIgnoresFile | Photo-Org-Backend/Source/Program.cs:321 | The post-delete report is the same whether or not the file is still there. |
| Relocator.ArchiveCrashes | Photo-Org-Backend/Source/Program.cs:280-306 | The archive relocation raises uncaught exactly when the source is missing, or the copy fails with no destination file. |
| Relocator.ReviewCrashes | Photo-Org-Backend/Source/Program.cs:404-441 | The review relocation raises uncaught in exactly the same cases. |
| Relocator.SourceRemovedOnlyWhenVerified | Photo-Org-Backend/Source/Program.cs:280-344 | In both orders, the source disappears only when the outcome is verified and the destination's digest equals the source's original digest. |
| Relocator.SuccessfulCopyMoves | Photo-Org-Backend/Source/Program.cs:280-324 | A successful copy makes both relocations a move, with the archive log exactly "success, delete reported". |
| Relocator.FailedCopyKeepsFiles | Photo-Org-Backend/Source/Program.cs:280-336 | A failed copy onto a different existing file leaves both files. It logs the copy or move failure and the mismatch. |
| Relocator.StaleDestinationAccepted | Photo-Org-Backend/Source/Program.cs:284-320 | A failed copy onto an existing file with the same checksum still verifies and deletes the source. |
| Relocator.SelfRelocationLosesFile | Photo-Org-Backend/Source/Program.cs:280-324 | Relocating a file onto its own path deletes it. |
| Relocator.HashOrderIrrelevant | Photo-Org-Backend/Source/Program.cs:404-441 | When nothing but the program writes the source, checksumming it before or after the copy gives the same files and outcome. |
| Orchestrator.ReadFile | Photo-Org-Backend/Source/Program.cs:149-243 | Reading raises uncaught exactly when the library rejects the file or a consulted date tag is too short. A date is found only from tags read without error, and it is the reader's date. |
| Orchestrator.ArchiveDestination | Photo-Org-Backend/Source/Program.cs:267-268 | The destination lies under `{dest}/` and differs from the file's own path. |
| Orchestrator.ArchiveDated | Photo-Org-Backend/Source/Program.cs:246-344 | A dated file's log grows and no other file disappears. The file is removed only with a removal report in the log, and only when its archive path then holds contents with the file's original checksum. |
| Orchestrator.ArchiveFile | Photo-Org-Backend/Source/Program.cs:135-359 | The archive branch either archives (queue unchanged) or queues the file without touching any file. A removal is always reported, and happens only when another path then holds contents with the file's original checksum. |
| Orchestrator.QueueUndated | Photo-Org-Backend/Source/Program.cs:346-359 | An undated file is queued and no file changes. |
| Orchestrator.DiscardFile | Photo-Org-Backend/Source/Program.cs:363-373 | A sidecar is removed and exactly one removal report is logged. |
| Orchestrator.QueueFile | Photo-Org-Backend/Source/Program.cs:376-380 | A review-bound file is queued and no file changes. |
| Orchestrator.ProcessFile | Photo-Org-Backend/Source/Program.cs:124-381 | One file at a time: the log only grows, and only the visited file can disappear, with a report. A file other than a sidecar disappears only when another path then holds contents with its original checksum. The queue grows by that file only when the files are unchanged. |
| Orchestrator.FileLoop | Photo-Org-Backend/Source/Program.cs:122-382 | Every file the file loop removes is reported in the log, and a crash stops the loop. The loop only appends to the review queue, and only listed files outside the review directory. Unless it crashes, every listed file outside the review directory with an unknown extension is queued. |
| Orchestrator.FlushReview | Photo-Org-Backend/Source/Program.cs:386-479 | Every file the review flush removes is reported in the log, and a crash stops it. Where each file ends up is stated by FlushReviewMoves. |
| Orchestrator.FlushReviewMoves | Photo-Org-Backend/Source/Program.cs:398-478 | With copies that succeed, and queued files that exist, lie outside the review directory and have distinct names: each file's bytes end at its review path, the original is gone, every other path is unchanged, and nothing crashes. |
| Orchestrator.MovedToReviewCons | Photo-Org-Backend/Source/Program.cs:398-478 | Moving the head of the queue and then the rest moves the whole queue. |
| Orchestrator.PairFiles | Photo-Org-Backend/Source/Program.cs:103-382 | The queue is emptied when the pair starts, so after its file loop it holds only this pair's listed files outside the review directory. |
| Orchestrator.ProcessPair | Photo-Org-Backend/Source/Program.cs:103-484 | A pair starts with its PAIR line, and every removal is reported. The queue it flushes holds only this pair's listed files outside the review directory, whatever an earlier pair queued. |
| Orchestrator.PairReviewMoves | Photo-Org-Backend/Source/Program.cs:103-478 | In a healthy environment, with distinct names among the listed files outside the review directory, the pair never crashes. Every file its own loop queued, including every one with an unknown extension, ends at its review path with its bytes, and no other path changes in the flush. |
| Orchestrator.UndatedMediaReviewed | Photo-Org-Backend/Source/Program.cs:131-478 | A media file whose metadata give no date, alone in its pair, ends at `{review}/{stamp}/{name}` with its bytes. The original is gone and nothing else changes. |
| Orchestrator.PairLoop | Photo-Org-Backend/Source/Program.cs:103-484 | Across all pairs the log only grows, and every removed file is reported. |
| Orchestrator.AnyPending | Photo-Org-Backend/Source/Program.cs:74-81 | A listing has pending work exactly when some file lies outside the review directory. |
| Orchestrator.StillEmptyMeansNothingToDo | Photo-Org-Backend/Source/Program.cs:62-84 | The empty-check loop is equivalent to "every listed file of every pair contains that pair's review directory". |
| Orchestrator.Run | Photo-Org-Backend/Source/Program.cs:51-492 | Every log starts with the header lines, and every file that disappears was reported. |
| Orchestrator.ProcessFileQueues | Photo-Org-Backend/Source/Program.cs:131-380 | A file is queued exactly when its extension is unknown, or it is a media file whose metadata gives no date. |
| Orchestrator.ArchivedFileMoves | Photo-Org-Backend/Source/Program.cs:246-324 | On a device whose copies succeed, a dated media file moves to its archive path and nothing else changes. |
| Orchestrator.DiscardedFileDeleted | Photo-Org-Backend/Source/Program.cs:363-368 | In a well-formed file system a sidecar is deleted, and the log gains exactly FILE and DELETED. |
| Orchestrator.ReviewFolderSkipped | Photo-Org-Backend/Source/Program.cs:124 | A file under the review directory is left alone and not logged. |
| Orchestrator.EmptyRunIffNothingToDo | Photo-Org-Backend/Source/Program.cs:62-100 | The run's log is exactly the header plus EMPTY if and only if no pair has a file outside its review directory. In that case no file changes. |
| Orchestrator.FileLoopSafe | Photo-Org-Backend/Source/Program.cs:122-382 | In a healthy environment the file loop never crashes. The queue stays distinct and inside the file system. |
| Orchestrator.FlushReviewSafe | Photo-Org-Backend/Source/Program.cs:398-478 | In a healthy environment the review flush never crashes on distinct existing files. |
| Orchestrator.PairLoopSafe | Photo-Org-Backend/Source/Program.cs:103-484 | In a healthy environment the pair loop never crashes. |
| Orchestrator.RunNeverCrashes | Photo-Org-Backend/Source/Program.cs:51-492 | In a healthy environment the run never crashes, so the log file is written. |
| Orchestrator.TwoMovesOneDestination | Photo-Org-Backend/Source/Program.cs:421-457 | Two moves onto one destination keep only the second file's bytes. |
| Orchestrator.ReviewNameCollision | Photo-Org-Backend/Source/Program.cs:398-478 | Two queued files with one name lose the first file's bytes, yet both originals are deleted. |
| Orchestrator.ArchiveNameCollision | Photo-Org-Backend/Source/Program.cs:267-320 | Two dated files with one name in different folders, with one capture, share an archive path. The second copy overwrites the first and both originals are deleted. |
| Orchestrator.ArchiveLoopCollision | Photo-Org-Backend/Source/Program.cs:124-320 | The same loss through the file loop: two media files with one name whose metadata read alike. |

## Left out

- The single-instance check on the process list: a run is modelled alone.
- Reading the holding-pairs JSON file: the pairs are a parameter. A pair with fewer than
  three entries, which would raise in the code, is not expressible.
- The clock: the run timestamp is a parameter, and the 5-second `Thread.Sleep` is left out.
- Other writers: the file system changes only through the program. The sleep at line 119
  waits for some other writer to finish, and that writer is not modelled. If it writes a
  listed file during the run, the hash orders differ in what they catch:
  - the archive order (copy at line 282, source checksum at line 294) catches a write
    between the copy and the checksum;
  - the review order (source checksum at line 408, copy at line 423) catches a write
    between the checksum and the copy.

  Relocator.HashOrderIrrelevant holds only when nothing else writes the source.
- The MD5 algorithm and its hex formatting: a digest function of the bytes is a parameter.
- Console output and the exact wording of log lines: the log is a sequence of events.
- Writing the log file: the model ends with the event sequence. A crash means the write
  never happens.
- The `find` cleanup after each pair (lines 481-483). It removes empty directories under
  the pair's source, which the flat file map does not have. `Process.Start` is not
  awaited, so in Program.cs the cleanup runs alongside the next pair. It can remove an
  empty `{dest}/Y/M/D/` lying under that source, created but not yet copied into. That
  copy then fails with a caught IOException, and `OpenRead` at line 301 raises uncaught.
  This concurrency is not modelled.
- Directory creation before the copies: directories are implicit in the path keys.
- `Directory.Exists(Pair[0])`: the listing of a missing directory is empty, which takes
  the same branch.
- The listing order of `Directory.GetFiles`: the listing is a parameter.
- Non-ASCII case folding in `ToLower`: only ASCII letters are folded.
- Exceptions the model does not raise, each of which would end the run in Program.cs:
  - any exception from `File.Delete` (lines 320, 364 and 453, none inside a try);
  - exceptions other than IOException from the copies (access denied, path too long and
    the like);
  - exceptions from `Directory.GetFiles` (lines 72 and 117);
  - exceptions from `Directory.CreateDirectory` (lines 276 and 391);
  - exceptions from the final log write (lines 487-492);
  - null tag descriptions.

  In the model a delete always succeeds, and listing, directory creation and the log
  write never fail.
- Metadata partly read before an IOException: a caught read error yields no tags at all,
  although the code keeps whatever it had already set.
- Orchestrator.Run: does not state that the log file is written, because writing the log
  is I/O outside the model. It states the log's contents instead.
- MetadataReader.OriginalDate: its ensures state only the date's shape. The content is
  stated by OriginalDateOfFields, for descriptions of the form `Y:M:D rest`: three colon
  fields followed by a space. Descriptions with no space, or with four or more colon
  fields in the first token, have no content lemma.
- MetadataReader.TextualDate: its ensures state only the date's shape. The full content is
  stated by TextualDateOfTokens.
- Path normalisation. Paths are compared as strings, with no treatment of a doubled '/',
  `.`, `..` or symbolic links. Unix treats `r//s/n` and `r/s/n` as one file, and the
  program can build such paths (`DestinationNamer.ReviewPathKeepsDoubleSlash`). The
  following therefore hold for path strings, not for the files they name:
  - `DestinationNamer.ReviewPathNeverSource` and `ArchivePathNeverSource`;
  - `Orchestrator.ReviewFolderSkipped` and the review-directory filter;
  - `Relocator.SelfRelocationLosesFile` and the `src == dst` case of `Relocator.Copy`;
  - the distinct-path premises of `Orchestrator.FlushReviewMoves` and `PairReviewMoves`.

  For example, a review directory given as `/photos//review` is not excluded from a scan
  of `/photos`.
- Relocator.Copy: a failed copy leaves the file system unchanged. `File.Copy(src, dst, true)`
  at lines 282 and 423 truncates an existing destination first, so an IOException in
  mid-copy can leave a partial destination. FailedCopyKeepsFiles holds only for this
  all-or-nothing copy.
- Orchestrator.FlushReview: its own ensures state only the log and the removal reports.
  Where each queued file ends up is stated by Orchestrator.FlushReviewMoves, for queues
  whose files have distinct names. Same-name files are covered by ReviewNameCollision.

=== FILE: classifier.dfy ===
/**
 * The extension classifier of Program.cs: the text after the last '.' of
 * the path, lower-cased, decides between archiving, deleting and review.
 */
module Classifier {
  import opened Text

  datatype Action = Archive | Discard | Review

  /** Extensions whose files are dated and archived. */
  const AllowedEndings: seq<string> := ["raf", "jpeg", "jpg", "mov", "mp4"]

  /** Extensions whose files are deleted outright. */
  const DeleteEndings: seq<string> := ["aae"]

  /** `FilePath.Split(".")[last].ToLower()`: a path without a '.' is its own extension. */
  function Extension(path: string): (ext: string)
    ensures '.' !in ext
    ensures forall i :: 0 <= i < |ext| ==> !IsUpper(ext[i])
    ensures |ext| <= |path| && ext == Lower(path[|path| - |ext|..])
  {
    var seg := LastSegment(path, '.');
    LastSegmentIsSuffix(path, '.');
    Lower(seg)
  }

  /** The extension is everything after the LAST '.': it is preceded by a '.' unless
      it is the whole path, and a path without '.' is its own extension, lower-cased. */
  lemma ExtensionAfterLastDot(path: string)
    ensures var ext := Extension(path);
            |ext| == |path| || path[|path| - |ext| - 1] == '.'
    ensures '.' !in path ==> Extension(path) == Lower(path)
  {
    LastSegmentIsSuffix(path, '.');
    var ext := Extension(path);
    if '.' !in path {
      assert forall i :: 0 <= i < |path| ==> path[i] != '.';
      assert |ext| == |path|;
      assert path[|path| - |ext|..] == path;
    }
  }

  /** The branch the file loop takes for a file. */
  function Classify(path: string): (action: Action)
  {
    var ext := Extension(path);
    if ext in AllowedEndings then Archive
    else if ext in DeleteEndings then Discard
    else Review
  }

  /** The extension of `stem.ext` is `ext` lower-cased, whatever the stem holds. */
  lemma ExtensionOfName(stem: string, ext: string)
    requires '.' !in ext
    ensures Extension(stem + "." + ext) == Lower(ext)
  {
    LastSegmentAfterSeparator(stem, '.', ext);
  }

  /** Lower-casing the whole path does not change its extension. */
  lemma ExtensionOfLowered(path: string)
    ensures Extension(Lower(path)) == Extension(path)
  {
    LastSegmentLower(path, '.');
    LowerIdempotent(LastSegment(path, '.'));
  }

  /** Classification ignores letter case: paths equal up to case classify alike. */
  lemma ClassifyIgnoresCase(p: string, q: string)
    requires Lower(p) == Lower(q)
    ensures Classify(p) == Classify(q)
  {
    ExtensionOfLowered(p);
    ExtensionOfLowered(q);
  }

  /** The three branches for a file named `stem.ext`, in terms of the extension as written. */
  lemma ClassifyByExtension(stem: string, ext: string)
    requires '.' !in ext
    ensures Classify(stem + "." + ext) == Archive <==> Lower(ext) in AllowedEndings
    ensures Classify(stem + "." + ext) == Discard <==>
              Lower(ext) !in AllowedEndings && Lower(ext) in DeleteEndings
    ensures Classify(stem + "." + ext) == Review <==>
              Lower(ext) !in AllowedEndings && Lower(ext) !in DeleteEndings
  {
    ExtensionOfName(stem, ext);
  }

  /** ".JPG", ".Jpg" and ".jpg" are all archived. */
  lemma JpegAnyCaseArchived(stem: string)
    ensures Classify(stem + ".JPG") == Archive
    ensures Classify(stem + ".Jpg") == Archive
    ensures Classify(stem + ".jpg") == Archive
  {
    assert stem + ".JPG" == stem + "." + "JPG";
    assert stem + ".Jpg" == stem + "." + "Jpg";
    assert stem + ".jpg" == stem + "." + "jpg";
    ExtensionOfName(stem, "JPG");
    ExtensionOfName(stem, "Jpg");
    ExtensionOfName(stem, "jpg");
    assert Lower("JPG") == "jpg";
    assert Lower("Jpg") == "jpg";
    assert Lower("jpg") == "jpg";
  }

  /** An ".AAE" sidecar is discarded and a ".png" goes to review. */
  lemma SidecarDiscardedOtherReviewed(stem: string)
    ensures Classify(stem + ".AAE") == Discard
    ensures Classify(stem + ".png") == Review
  {
    assert stem + ".AAE" == stem + "." + "AAE";
    assert stem + ".png" == stem + "." + "png";
    ExtensionOfName(stem, "AAE");
    ExtensionOfName(stem, "png");
    assert Lower("AAE") == "aae";
    assert Lower("png") == "png";
  }

  /** A '.' in a directory name counts as the extension when the file name has none,
      so such a file goes to review. */
  lemma DotInDirectoryOnly(dir: string, name: string)
    requires '.' !in name
    ensures Classify(dir + "." + ("mov/" + name)) == Review
  {
    ClassifyByExtension(dir, "mov/" + name);
    var ext := Lower("mov/" + name);
    assert ext[3] == '/';
    assert |ext| >= 4;
  }
}

=== FILE: log.dfy ===
/**
 * The run log: an append-only sequence of tagged events. Only the event
 * taxonomy is modelled; the wording of each line is not.
 */
module Log {

  datatype Event =
    | Blank                                              // the empty line opening a run
    | NewStart                                           // [NEW START]
    | Info(text: string)                                 // [INFO] version and run time
    | PairStart(source: string, dest: string)            // [PAIR]
    | FileSeen(path: string)                             // [FILE]
    | Processing(path: string)                           // [PROC]
    | NewName(from: string, to: string)                  // [NEW NAME]
    | MetadataReadFailed                                 // [ERROR] metadata extraction raised an IOException
    | CopyFailed                                         // [ERROR] archive copy raised an IOException
    | MoveFailed                                         // [ERROR] review copy raised an IOException
    | Success(sourceDigest: string, destDigest: string)  // [SUCCESS]
    | DigestMismatch(sourceDigest: string, destDigest: string) // [ERROR] checksums differ
    | NewFileNotFound                                    // [ERROR] destination missing
    | DeleteOld(path: string)                            // [DELETE OLD]
    | DeleteOldFailed(path: string)                      // [ERROR] source would not delete
    | Deleted(path: string)                              // [DELETED]
    | DeleteFailed(path: string)                         // [ERROR] discarded file would not delete
    | MissingData(date: string, make: string, model: string) // [ERROR] the four "cannot find all the data" lines
    | ToReview(path: string)                             // [REVIEW]
    | NothingToProcess                                   // [EMPTY]

  /** The event reports that `path` was removed (or that removing it failed). */
  predicate ReportsRemoval(e: Event, path: string)
  {
    e == DeleteOld(path) || e == DeleteOldFailed(path) || e == Deleted(path) || e == DeleteFailed(path)
  }
}

=== FILE: metadata.dfy ===
/**
 * The metadata reader of Program.cs: from the tags of a media file, the
 * capture date (three tiers of fallback) and the device make and model.
 * The tag library itself is outside the model; its output is the list of
 * (name, description) pairs, flattened across tag directories in reading
 * order.
 */
module MetadataReader {
  import opened Wrappers
  import opened Text

  datatype Tag = Tag(name: string, description: string)

  /** Date, make and model as the program keeps them: "" stands for "not found". */
  datatype Capture = Capture(date: string, make: string, model: string)

  const OriginalTag := "Date/Time Original"
  const CreationDateTag := "Creation Date"
  const CreatedTag := "Created"
  const MakeTag := "Make"
  const ModelTag := "Model"

  /** The month table of the two textual tiers. */
  const Months: seq<string> := ["Jan", "Feb", "Mar", "Apr", "May", "Jun", "Jul", "Aug", "Sep", "Oct", "Nov", "Dec"]

  /** Position of the year among the space-separated tokens of each textual tier. */
  const CreationDateYearToken: nat := 5
  const CreatedYearToken: nat := 4

  /** `Replace(" ", "-")`, applied to makes and models. */
  function Hyphenate(s: string): (r: string)
    ensures |r| == |s| && ' ' !in r
    ensures forall i :: 0 <= i < |s| ==> r[i] == (if s[i] == ' ' then '-' else s[i])
  {
    ReplaceCharIdempotent(s, ' ', '-');
    ReplaceChar(s, ' ', '-')
  }

  /** The make and model of the worked example: "EOS R5" becomes "EOS-R5". */
  lemma CanonTagsHyphenated(make: string, model: string)
    requires make == "Canon" && model == "EOS R5"
    ensures Hyphenate(make) == "Canon" && Hyphenate(model) == "EOS-R5"
  {
    var r := Hyphenate(model);
    assert r[3] == '-';
  }

  /** A one-character field gets a leading "0"; any other length is kept. */
  function PadTwo(s: string): (padded: string)
  {
    if |s| == 1 then "0" + s else s
  }

  // ---------------------------------------------------------------------
  // Tag lookup

  predicate NoTag(tags: seq<Tag>, name: string)
  {
    forall i :: 0 <= i < |tags| ==> tags[i].name != name
  }

  /** Position of the last tag called `name`, or -1. */
  function LastIndex(tags: seq<Tag>, name: string): (k: int)
    ensures -1 <= k < |tags|
    ensures k == -1 <==> NoTag(tags, name)
    ensures 0 <= k ==> tags[k].name == name && forall j :: k < j < |tags| ==> tags[j].name != name
    decreases |tags|
  {
    if |tags| == 0 then -1
    else if tags[|tags| - 1].name == name then |tags| - 1
    else LastIndex(tags[..|tags| - 1], name)
  }

  /** The last tag of a list is found by looking past the first tag. */
  lemma {:induction false} LastIndexTail(tags: seq<Tag>, name: string)
    requires |tags| > 0
    ensures LastIndex(tags, name) ==
              (if LastIndex(tags[1..], name) >= 0 then LastIndex(tags[1..], name) + 1
               else if tags[0].name == name then 0 else -1)
  {
    var k' := LastIndex(tags[1..], name);
    assert forall i :: 1 <= i < |tags| ==> tags[i] == tags[1..][i - 1];
    if k' >= 0 {
      assert tags[k' + 1].name == name;
    }
  }

  // ---------------------------------------------------------------------
  // Tier 1: "Date/Time Original", e.g. "2023:04:05 10:00:00"

  /** The colon-separated fields of the first space-separated token. */
  function OriginalFields(desc: string): (fields: seq<string>)
  {
    Split(Split(desc, ' ')[0], ':')
  }

  /** The description has year, month and day fields; otherwise Program.cs indexes out of range. */
  predicate OriginalParsable(desc: string)
  {
    |OriginalFields(desc)| >= 3
  }

  /** The tier-1 date "Y-M-D". A one-character day is replaced by "0" + year, as Program.cs does. */
  function OriginalDate(desc: string): (date: string)
    requires OriginalParsable(desc)
    ensures '-' in date
  {
    var f := OriginalFields(desc);
    var day := if |f[2]| == 1 then "0" + f[0] else f[2];
    var month := if |f[1]| == 1 then "0" + f[1] else f[1];
    var date := f[0] + "-" + month + "-" + day;
    assert date[|f[0]|] == '-';
    date
  }

  predicate OriginalTagsParsable(tags: seq<Tag>)
  {
    forall i :: 0 <= i < |tags| && tags[i].name == OriginalTag ==> OriginalParsable(tags[i].description)
  }

  /** One iteration of the first tag loop: a matching tag overwrites what earlier tags set. */
  function ScanStep(acc: Capture, t: Tag): (next: Capture)
    requires t.name == OriginalTag ==> OriginalParsable(t.description)
  {
    Capture(
      if t.name == OriginalTag then OriginalDate(t.description) else acc.date,
      if t.name == MakeTag then Hyphenate(t.description) else acc.make,
      if t.name == ModelTag then Hyphenate(t.description) else acc.model)
  }

  /** The first tag loop over all tags in order (Program.cs, lines 155-182). */
  function ScanTags(tags: seq<Tag>, acc: Capture): (c: Capture)
    requires OriginalTagsParsable(tags)
    decreases |tags|
  {
    if |tags| == 0 then acc
    else ScanTags(tags[1..], ScanStep(acc, tags[0]))
  }

  lemma OriginalTagsParsableTail(tags: seq<Tag>)
    requires |tags| > 0 && OriginalTagsParsable(tags)
    ensures OriginalTagsParsable(tags[1..])
  {
    assert forall i :: 0 <= i < |tags| - 1 ==> tags[1..][i] == tags[i + 1];
  }

  /** In the first tag loop the last matching tag of each kind wins. */
  lemma {:induction false} ScanTagsLastWins(tags: seq<Tag>, acc: Capture)
    requires OriginalTagsParsable(tags)
    ensures var c := ScanTags(tags, acc);
            var k := LastIndex(tags, OriginalTag);
            c.date == if k < 0 then acc.date else OriginalDate(tags[k].description)
    ensures var c := ScanTags(tags, acc);
            var k := LastIndex(tags, MakeTag);
            c.make == if k < 0 then acc.make else Hyphenate(tags[k].description)
    ensures var c := ScanTags(tags, acc);
            var k := LastIndex(tags, ModelTag);
            c.model == if k < 0 then acc.model else Hyphenate(tags[k].description)
    decreases |tags|
  {
    if |tags| > 0 {
      var rest := tags[1..];
      OriginalTagsParsableTail(tags);
      ScanTagsLastWins(rest, ScanStep(acc, tags[0]));
      LastIndexTail(tags, OriginalTag);
      LastIndexTail(tags, MakeTag);
      LastIndexTail(tags, ModelTag);
    }
  }

  // ---------------------------------------------------------------------
  // Tiers 2 and 3: "Creation Date" and "Created", e.g. "Fri Jan 05 10:00:00 +00:00 2024"

  /** The description has a month, a day and a year token; otherwise Program.cs indexes out of range. */
  predicate TextualParsable(desc: string, yearToken: nat)
  {
    2 < |Split(desc, ' ')| && yearToken < |Split(desc, ' ')|
  }

  /** `Months.IndexOf(abbrev) + 1`: 1 to 12 for a known abbreviation, 0 otherwise. */
  function MonthNumber(abbrev: string): (n: nat)
    ensures n <= 12
    ensures n == 0 <==> abbrev !in Months
    ensures 0 < n ==> Months[n - 1] == abbrev
  {
    IndexOf(Months, abbrev) + 1
  }

  /** The month as two digits: "01" to "12", and "00" for an unknown abbreviation. */
  function MonthField(abbrev: string): (m: string)
    ensures |m| == 2 && AllDigits(m)
    ensures DigitsValue(m) == MonthNumber(abbrev)
  {
    var n := MonthNumber(abbrev);
    var s := NatToString(n);
    if n < 10 then LeadingZero(s); PadTwo(s)
    else
      assert s == NatToString(n / 10) + [DigitChar(n % 10)];
      PadTwo(s)
  }

  /** The date of a textual tier: year token, month number, day token padded to two characters. */
  function TextualDate(desc: string, yearToken: nat): (date: string)
    requires TextualParsable(desc, yearToken)
    ensures '-' in date
  {
    var t := Split(desc, ' ');
    var year := t[yearToken];
    var date := year + "-" + MonthField(t[1]) + "-" + PadTwo(t[2]);
    assert date[|year|] == '-';
    date
  }

  predicate TextualTagsParsable(tags: seq<Tag>, name: string, yearToken: nat)
  {
    forall i :: 0 <= i < |tags| && tags[i].name == name ==> TextualParsable(tags[i].description, yearToken)
  }

  /** The loop of one textual tier (Program.cs, lines 187-209 and 214-236). */
  function ScanTextual(tags: seq<Tag>, name: string, yearToken: nat, date: string): (found: string)
    requires TextualTagsParsable(tags, name, yearToken)
    decreases |tags|
  {
    if |tags| == 0 then date
    else
      var d := if tags[0].name == name then TextualDate(tags[0].description, yearToken) else date;
      ScanTextual(tags[1..], name, yearToken, d)
  }

  lemma TextualTagsParsableTail(tags: seq<Tag>, name: string, yearToken: nat)
    requires |tags| > 0 && TextualTagsParsable(tags, name, yearToken)
    ensures TextualTagsParsable(tags[1..], name, yearToken)
  {
    assert forall i :: 0 <= i < |tags| - 1 ==> tags[1..][i] == tags[i + 1];
  }

  /** In a textual tier the last tag called `name` sets the date. */
  lemma {:induction false} ScanTextualLastWins(tags: seq<Tag>, name: string, yearToken: nat, date: string)
    requires TextualTagsParsable(tags, name, yearToken)
    ensures var k := LastIndex(tags, name);
            ScanTextual(tags, name, yearToken, date) ==
              if k < 0 then date else TextualDate(tags[k].description, yearToken)
    decreases |tags|
  {
    if |tags| > 0 {
      TextualTagsParsableTail(tags, name, yearToken);
      var d := if tags[0].name == name then TextualDate(tags[0].description, yearToken) else date;
      ScanTextualLastWins(tags[1..], name, yearToken, d);
      LastTagAfterHead(tags, name, yearToken, date, d, ScanTextual(tags[1..], name, yearToken, d));
    }
  }

  /** The step of ScanTextualLastWins: the date the rest of the list settles on, seen from
      the whole list. */
  lemma LastTagAfterHead(tags: seq<Tag>, name: string, yearToken: nat, date: string, d: string, found: string)
    requires |tags| > 0 && TextualTagsParsable(tags, name, yearToken)
    requires TextualTagsParsable(tags[1..], name, yearToken)
    requires d == if tags[0].name == name then TextualDate(tags[0].description, yearToken) else date
    requires var k' := LastIndex(tags[1..], name);
             found == if k' < 0 then d else TextualDate(tags[1..][k'].description, yearToken)
    ensures var k := LastIndex(tags, name);
            found == if k < 0 then date else TextualDate(tags[k].description, yearToken)
  {
    LastIndexTail(tags, name);
    var k' := LastIndex(tags[1..], name);
    if k' >= 0 {
      assert tags[1..][k'] == tags[k' + 1];
    }
  }

  // ---------------------------------------------------------------------
  // The whole reader

  /** The tags the program reads without an index out of range: every tag of a tier it consults. */
  predicate Parsable(tags: seq<Tag>)
  {
    && OriginalTagsParsable(tags)
    && (NoTag(tags, OriginalTag) ==> TextualTagsParsable(tags, CreationDateTag, CreationDateYearToken))
    && (NoTag(tags, OriginalTag) && NoTag(tags, CreationDateTag) ==>
          TextualTagsParsable(tags, CreatedTag, CreatedYearToken))
  }

  /** The tiers in order: a later tier is consulted only while the date is still "". */
  function ReadCapture(tags: seq<Tag>): (c: Capture)
    requires Parsable(tags)
    ensures c.date == "" <==>
              NoTag(tags, OriginalTag) && NoTag(tags, CreationDateTag) && NoTag(tags, CreatedTag)
    ensures var k := LastIndex(tags, OriginalTag);
            0 <= k ==> c.date == OriginalDate(tags[k].description)
    ensures var k := LastIndex(tags, CreationDateTag);
            NoTag(tags, OriginalTag) && 0 <= k ==>
              c.date == TextualDate(tags[k].description, CreationDateYearToken)
    ensures var k := LastIndex(tags, CreatedTag);
            NoTag(tags, OriginalTag) && NoTag(tags, CreationDateTag) && 0 <= k ==>
              c.date == TextualDate(tags[k].description, CreatedYearToken)
    ensures var k := LastIndex(tags, MakeTag);
            c.make == if k < 0 then "" else Hyphenate(tags[k].description)
    ensures var k := LastIndex(tags, ModelTag);
            c.model == if k < 0 then "" else Hyphenate(tags[k].description)
  {
    ScanTagsLastWins(tags, Capture("", "", ""));
    var first := ScanTags(tags, Capture("", "", ""));
    var second :=
      if first.date == "" then
        ScanTextualLastWins(tags, CreationDateTag, CreationDateYearToken, "");
        ScanTextual(tags, CreationDateTag, CreationDateYearToken, "")
      else first.date;
    var third :=
      if second == "" then
        ScanTextualLastWins(tags, CreatedTag, CreatedYearToken, "");
        ScanTextual(tags, CreatedTag, CreatedYearToken, "")
      else second;
    Capture(third, first.make, first.model)
  }

  // ---------------------------------------------------------------------
  // Properties of the parsers

  /** The first space-separated token of `token + " " + rest`. */
  lemma FirstToken(token: string, rest: string)
    requires ' ' !in token
    ensures Split(token + " " + rest, ' ')[0] == token
  {
    assert token + " " + rest == token + [' '] + rest;
    SplitAtSeparator(token, ' ', rest);
    SplitWithoutSeparator(token, ' ');
  }

  /** The colon-separated fields of "Y:M:D". */
  lemma ColonFields(y: string, m: string, d: string)
    requires ':' !in y && ':' !in m && ':' !in d
    ensures Split(y + ":" + m + ":" + d, ':') == [y, m, d]
  {
    assert y + ":" + m + ":" + d == y + [':'] + (m + [':'] + d);
    SplitAtSeparator(y, ':', m + [':'] + d);
    SplitAtSeparator(m, ':', d);
    SplitWithoutSeparator(y, ':');
    SplitWithoutSeparator(m, ':');
    SplitWithoutSeparator(d, ':');
  }

  /** A "Date/Time Original" of the form "Y:M:D rest" gives "Y-M-D" with a one-character month
      padded by "0", and a one-character day replaced by "0" + Y as Program.cs is written. */
  lemma OriginalDateOfFields(y: string, m: string, d: string, rest: string)
    requires ':' !in y && ':' !in m && ':' !in d
    requires ' ' !in y && ' ' !in m && ' ' !in d
    ensures var desc := y + ":" + m + ":" + d + " " + rest;
            OriginalParsable(desc) &&
            OriginalDate(desc) == y + "-" + PadTwo(m) + "-" + (if |d| == 1 then "0" + y else d)
  {
    var token := y + ":" + m + ":" + d;
    assert ' ' !in token by {
      assert forall i :: 0 <= i < |token| ==> token[i] != ' ';
    }
    FirstToken(token, rest);
    ColonFields(y, m, d);
    assert OriginalFields(token + " " + rest) == [y, m, d];
  }

  /** Two-character month and day fields come out exactly as "Y-M-D". */
  lemma TwoDigitOriginalDate(y: string, m: string, d: string, rest: string)
    requires ':' !in y && ':' !in m && ':' !in d
    requires ' ' !in y && ' ' !in m && ' ' !in d
    requires |m| == 2 && |d| == 2
    ensures var desc := y + ":" + m + ":" + d + " " + rest;
            OriginalParsable(desc) && OriginalDate(desc) == y + "-" + m + "-" + d
  {
    OriginalDateOfFields(y, m, d, rest);
  }

  /** The padding slip of Program.cs: "2023:04:5 10:00:00" gives the day "02023". */
  lemma DayPaddedWithYear(desc: string)
    requires desc == "2023:04:5 10:00:00"
    ensures OriginalParsable(desc) && OriginalDate(desc) == "2023-04-02023"
  {
    SlipLiterals(desc, "2023-04-02023");
    OriginalDateOfFields("2023", "04", "5", "10:00:00");
  }

  lemma SlipLiterals(desc: string, date: string)
    requires desc == "2023:04:5 10:00:00" && date == "2023-04-02023"
    ensures desc == "2023" + ":" + "04" + ":" + "5" + " " + "10:00:00"
    ensures date == "2023" + "-" + PadTwo("04") + "-" + ("0" + "2023")
  {
  }

  /** A textual date whose tokens are single-space separated: year token, month number, padded day. */
  lemma TextualDateOfTokens(tokens: seq<string>, yearToken: nat)
    requires 2 < |tokens| && yearToken < |tokens|
    requires forall i :: 0 <= i < |tokens| ==> ' ' !in tokens[i]
    ensures TextualParsable(Join(tokens, ' '), yearToken)
    ensures TextualDate(Join(tokens, ' '), yearToken) ==
              tokens[yearToken] + "-" + MonthField(tokens[1]) + "-" + PadTwo(tokens[2])
  {
    SplitJoin(tokens, ' ');
  }

  /** An abbreviation missing from the table yields month "00". */
  lemma UnknownMonthIsZero(abbrev: string)
    requires abbrev !in Months
    ensures MonthField(abbrev) == "00"
  {
    assert NatToString(0) == "0";
  }

  /** "Jan" is month "01". */
  lemma JanuaryIsOne()
    ensures MonthField("Jan") == "01"
  {
    assert IndexOf(Months, "Jan") == 0;
    assert NatToString(1) == "1";
  }

  /** A file whose only tag is one textual-tier tag is dated by that tag alone. */
  lemma SingleTextualTag(name: string, desc: string)
    requires name == CreationDateTag || name == CreatedTag
    requires TextualParsable(desc, if name == CreationDateTag then CreationDateYearToken else CreatedYearToken)
    ensures Parsable([Tag(name, desc)])
    ensures ReadCapture([Tag(name, desc)]).date ==
              TextualDate(desc, if name == CreationDateTag then CreationDateYearToken else CreatedYearToken)
  {
    var tags := [Tag(name, desc)];
    assert LastIndex(tags, name) == 0;
    assert NoTag(tags, OriginalTag);
    if name == CreatedTag {
      assert NoTag(tags, CreationDateTag);
    }
  }

  /** Year "2024", month "Jan" and day "5" or "05" make the date "2024-01-05". */
  lemma JanuaryFifth(day: string)
    requires day == "5" || day == "05"
    ensures "2024" + "-" + MonthField("Jan") + "-" + PadTwo(day) == "2024-01-05"
  {
    JanuaryIsOne();
    assert PadTwo(day) == "05";
    assert "2024" + "-" + "01" + "-" + "05" == "2024-01-05";
  }

  lemma CreatedTokens(desc: string)
    requires desc == "Mon Jan 5 10:00:00 2024"
    ensures desc == "Mon" + " " + "Jan" + " " + "5" + " " + "10:00:00" + " " + "2024"
  {
  }

  lemma ZonedTokens(desc: string)
    requires desc == "Fri Jan 05 10:00:00 +00:00 2024"
    ensures desc == "Fri" + " " + "Jan" + " " + "05" + " " + "10:00:00" + " " + "+00:00" + " " + "2024"
  {
  }

  /** A "Created" tag "Mon Jan 5 10:00:00 2024" and no earlier tier gives 2024-01-05. */
  lemma CreatedExample(desc: string)
    requires desc == "Mon Jan 5 10:00:00 2024"
    ensures Parsable([Tag(CreatedTag, desc)])
    ensures ReadCapture([Tag(CreatedTag, desc)]).date == "2024-01-05"
  {
    var tokens := ["Mon", "Jan", "5", "10:00:00", "2024"];
    CreatedTokens(desc);
    JoinFive("Mon", "Jan", "5", "10:00:00", "2024", ' ');
    TextualDateOfTokens(tokens, CreatedYearToken);
    JanuaryFifth("5");
    SingleTextualTag(CreatedTag, desc);
  }

  /** A "Creation Date" carries a zone token, so its year is token 5:
      "Fri Jan 05 10:00:00 +00:00 2024" gives 2024-01-05. */
  lemma CreationDateExample(desc: string)
    requires desc == "Fri Jan 05 10:00:00 +00:00 2024"
    ensures Parsable([Tag(CreationDateTag, desc)])
    ensures ReadCapture([Tag(CreationDateTag, desc)]).date == "2024-01-05"
  {
    var tokens := ["Fri", "Jan", "05", "10:00:00", "+00:00", "2024"];
    ZonedTokens(desc);
    JoinSix("Fri", "Jan", "05", "10:00:00", "+00:00", "2024", ' ');
    TextualDateOfTokens(tokens, CreationDateYearToken);
    JanuaryFifth("05");
    SingleTextualTag(CreationDateTag, desc);
  }

  /** A five-token "Creation Date" has no token 5: Program.cs would index out of range. */
  lemma ShortCreationDateUnparsable(desc: string)
    requires desc == "Mon Jan 5 10:00:00 2024"
    ensures !TextualParsable(desc, CreationDateYearToken)
  {
    var tokens := ["Mon", "Jan", "5", "10:00:00", "2024"];
    CreatedTokens(desc);
    JoinFive("Mon", "Jan", "5", "10:00:00", "2024", ' ');
    SplitJoin(tokens, ' ');
  }

  /** A "Make" tag read after all others sets the make, whatever came before. */
  lemma LaterMakeOverrides(tags: seq<Tag>, d: string)
    requires Parsable(tags)
    ensures Parsable(tags + [Tag(MakeTag, d)])
    ensures ReadCapture(tags + [Tag(MakeTag, d)]).make == Hyphenate(d)
  {
    var t := tags + [Tag(MakeTag, d)];
    assert forall i :: 0 <= i < |tags| ==> t[i] == tags[i];
    assert forall name :: name != MakeTag ==> (NoTag(t, name) <==> NoTag(tags, name));
  }

  /** A "Date/Time Original" read after all others sets the date, over every other tier. */
  lemma LaterOriginalOverrides(tags: seq<Tag>, d: string)
    requires OriginalTagsParsable(tags) && OriginalParsable(d)
    ensures Parsable(tags + [Tag(OriginalTag, d)])
    ensures ReadCapture(tags + [Tag(OriginalTag, d)]).date == OriginalDate(d)
  {
    var t := tags + [Tag(OriginalTag, d)];
    assert forall i :: 0 <= i < |tags| ==> t[i] == tags[i];
    assert t[|tags|].name == OriginalTag;
  }
}

=== FILE: namer.dfy ===
/**
 * The destination namer of Program.cs: the device tag, the archived file
 * name and path, and the path of a file moved into the run's review folder.
 * Paths are Unix paths: '/' separates directories.
 */
module DestinationNamer {
  import opened Text
  import MetadataReader

  const UnknownDevice := "Unknown-Device"

  /** `Path.GetFileName`: the text after the last '/'. */
  function FileName(path: string): (name: string)
    ensures '/' !in name
    ensures |name| <= |path| && path[|path| - |name|..] == name
  {
    LastSegmentIsSuffix(path, '/');
    LastSegment(path, '/')
  }

  /** The file name is everything after the LAST '/': it is preceded by a '/' unless
      it is the whole path, and a path without '/' is its own file name. */
  lemma FileNameAfterLastSlash(path: string)
    ensures var name := FileName(path);
            |name| == |path| || path[|path| - |name| - 1] == '/'
    ensures '/' !in path ==> FileName(path) == path
  {
    LastSegmentIsSuffix(path, '/');
  }

  /** The device part of an archived name, from the (already hyphenated) make and model. */
  function DeviceTag(make: string, model: string): (tag: string)
    ensures tag != ""
    ensures ' ' !in make && ' ' !in model ==> ' ' !in tag
  {
    if make == "" && model == "" then UnknownDevice
    else if make == "" then
      ReplaceCharIdempotent(model, ' ', '-');
      ReplaceChar(model, ' ', '-')
    else if model == "" then
      ReplaceCharIdempotent(make, ' ', '-');
      ReplaceChar(make, ' ', '-')
    else make + "_" + model
  }

  /** `{date}_{deviceTag}_{originalName}`. */
  function NewFileName(date: string, tag: string, originalName: string): (name: string)
  {
    date + "_" + tag + "_" + originalName
  }

  /** The date "Y-M-D" as nested directories "Y/M/D". */
  function DateDirectories(date: string): (dirs: string)
  {
    ReplaceChar(date, '-', '/')
  }

  /** `{destDir}/{date with '-' as '/'}/{newFileName}`. */
  function ArchivePath(destDir: string, date: string, tag: string, originalName: string): (path: string)
    ensures destDir + "/" <= path
    ensures '/' !in originalName ==>
              |originalName| < |path| && path[|path| - |originalName| - 1..] == "_" + originalName
  {
    var path := destDir + "/" + DateDirectories(date) + "/" + NewFileName(date, tag, originalName);
    assert path == (destDir + "/") + (DateDirectories(date) + "/" + NewFileName(date, tag, originalName));
    assert path == (destDir + "/" + DateDirectories(date) + "/" + date + "_" + tag) + ("_" + originalName);
    path
  }

  /** `{reviewDir}/{runTimestamp with '/' as '-'}/{fileName}`; Program.cs's later
      `Replace("//", "/")` on this path is discarded, so the path is used as built. */
  function ReviewPath(reviewDir: string, runTimestamp: string, source: string): (path: string)
    ensures reviewDir + "/" <= path
    ensures FileName(path) == FileName(source)
    ensures '/' !in runTimestamp ==> path == reviewDir + "/" + runTimestamp + "/" + FileName(source)
    ensures var k := |reviewDir| + 1;
            |path| == k + |runTimestamp| + 1 + |FileName(source)| &&
            '/' !in path[k..k + |runTimestamp|] && path[k + |runTimestamp|] == '/'
    ensures var k := |reviewDir| + 1;
            forall i :: 0 <= i < |runTimestamp| && runTimestamp[i] != '/' ==> path[k + i] == runTimestamp[i]
  {
    var stamp := ReplaceChar(runTimestamp, '/', '-');
    assert forall i :: 0 <= i < |stamp| ==> stamp[i] != '/';
    var path := reviewDir + "/" + stamp + "/" + FileName(source);
    assert path == (reviewDir + "/" + stamp) + ['/'] + FileName(source);
    assert path[|reviewDir| + 1..|reviewDir| + 1 + |stamp|] == stamp;
    LastSegmentAfterSeparator(reviewDir + "/" + stamp, '/', FileName(source));
    path
  }

  // ---------------------------------------------------------------------
  // Properties

  /** The device tag in each of the four cases of Program.cs. */
  lemma DeviceTagCases(make: string, model: string)
    requires ' ' !in make && ' ' !in model
    ensures make == "" && model == "" ==> DeviceTag(make, model) == "Unknown-Device"
    ensures make == "" && model != "" ==> DeviceTag(make, model) == model
    ensures make != "" && model == "" ==> DeviceTag(make, model) == make
    ensures make != "" && model != "" ==> DeviceTag(make, model) == make + "_" + model
  {
    ReplaceCharAbsent(make, ' ', '-');
    ReplaceCharAbsent(model, ' ', '-');
  }

  /** With both parts present and free of '_', the tag splits back into make and model. */
  lemma DeviceTagSplits(make: string, model: string)
    requires make != "" && model != ""
    requires '_' !in make && '_' !in model
    ensures Split(DeviceTag(make, model), '_') == [make, model]
  {
    SplitJoin([make, model], '_');
    assert Join([make, model], '_') == make + "_" + model;
  }

  /** A date "Y-M-D" becomes the directories "Y/M/D". */
  lemma DateDirectoriesOfParts(y: string, m: string, d: string)
    requires '-' !in y && '-' !in m && '-' !in d
    ensures DateDirectories(y + "-" + m + "-" + d) == y + "/" + m + "/" + d
  {
    var date := y + "-" + m + "-" + d;
    var dirs := y + "/" + m + "/" + d;
    var r := DateDirectories(date);
    assert |r| == |dirs|;
    forall i | 0 <= i < |r| ensures r[i] == dirs[i] {
      if i < |y| {
        assert date[i] == y[i] && dirs[i] == y[i];
      } else if i == |y| {
        assert date[i] == '-' && dirs[i] == '/';
      } else if i < |y| + 1 + |m| {
        assert date[i] == m[i - |y| - 1] && dirs[i] == m[i - |y| - 1];
      } else if i == |y| + 1 + |m| {
        assert date[i] == '-' && dirs[i] == '/';
      } else {
        assert date[i] == d[i - |y| - |m| - 2] && dirs[i] == d[i - |y| - |m| - 2];
      }
    }
  }

  /** The archive layout: `{destDir}/Y/M/D/Y-M-D_{tag}_{name}`. */
  lemma ArchivePathLayout(destDir: string, y: string, m: string, d: string, tag: string, name: string)
    requires '-' !in y && '-' !in m && '-' !in d
    ensures var date := y + "-" + m + "-" + d;
            ArchivePath(destDir, date, tag, name) ==
              destDir + "/" + y + "/" + m + "/" + d + "/" + date + "_" + tag + "_" + name
  {
    DateDirectoriesOfParts(y, m, d);
  }

  /** The file name of an archived path is the new file name, when no part holds a '/'. */
  lemma ArchiveFileName(destDir: string, date: string, tag: string, name: string)
    requires '/' !in date && '/' !in tag && '/' !in name
    ensures FileName(ArchivePath(destDir, date, tag, name)) == NewFileName(date, tag, name)
  {
    var n := NewFileName(date, tag, name);
    assert '/' !in n by {
      assert forall i :: 0 <= i < |n| ==> n[i] != '/';
    }
    assert ArchivePath(destDir, date, tag, name) == (destDir + "/" + DateDirectories(date)) + ['/'] + n;
    LastSegmentAfterSeparator(destDir + "/" + DateDirectories(date), '/', n);
  }

  /** Distinct original names never share an archive path (for one directory, date and tag). */
  lemma ArchivePathInjective(destDir: string, date: string, tag: string, n1: string, n2: string)
    requires ArchivePath(destDir, date, tag, n1) == ArchivePath(destDir, date, tag, n2)
    ensures n1 == n2
  {
    var prefix := destDir + "/" + DateDirectories(date) + "/" + date + "_" + tag + "_";
    assert ArchivePath(destDir, date, tag, n1) == prefix + n1;
    assert ArchivePath(destDir, date, tag, n2) == prefix + n2;
    assert n1 == (prefix + n1)[|prefix|..];
  }

  /** A file is never archived onto its own path: the archived name is longer than the
      original name, which is the last path component of the source. */
  lemma ArchivePathNeverSource(destDir: string, date: string, tag: string, source: string)
    ensures ArchivePath(destDir, date, tag, FileName(source)) != source
  {
    var name := FileName(source);
    var path := ArchivePath(destDir, date, tag, name);
    var head := destDir + "/" + DateDirectories(date) + "/" + date + "_" + tag;
    assert path == head + ("_" + name);
    LastSegmentAppend(head, '/', "_" + name);
    assert |FileName(path)| > |name|;
  }

  /** A review destination lies under the review directory, so later scans skip it. */
  lemma ReviewPathExcludedFromScan(reviewDir: string, runTimestamp: string, source: string)
    ensures Contains(ReviewPath(reviewDir, runTimestamp, source), reviewDir)
  {
    var path := ReviewPath(reviewDir, runTimestamp, source);
    assert path == reviewDir + path[|reviewDir|..];
    ContainsPrefix(reviewDir, path[|reviewDir|..]);
  }

  /** A file taken from outside the review directory is never reviewed onto itself. */
  lemma ReviewPathNeverSource(reviewDir: string, runTimestamp: string, source: string)
    requires !Contains(source, reviewDir)
    ensures ReviewPath(reviewDir, runTimestamp, source) != source
  {
    ReviewPathExcludedFromScan(reviewDir, runTimestamp, source);
  }

  /** The review path depends on the source only through its file name. */
  lemma ReviewPathByName(reviewDir: string, runTimestamp: string, a: string, b: string)
    requires FileName(a) == FileName(b)
    ensures ReviewPath(reviewDir, runTimestamp, a) == ReviewPath(reviewDir, runTimestamp, b)
  {
  }

  /** Two files with one name in different folders get the same review path. */
  lemma ReviewPathIgnoresFolder(reviewDir: string, runTimestamp: string, dir1: string, dir2: string, name: string)
    requires '/' !in name
    ensures ReviewPath(reviewDir, runTimestamp, dir1 + "/" + name) ==
            ReviewPath(reviewDir, runTimestamp, dir2 + "/" + name)
  {
    LastSegmentAfterSeparator(dir1, '/', name);
    LastSegmentAfterSeparator(dir2, '/', name);
  }

  /** A review directory given with a trailing '/' keeps the doubled '/'. */
  lemma ReviewPathKeepsDoubleSlash(reviewDir: string, runTimestamp: string, source: string)
    requires '/' !in runTimestamp
    ensures ReviewPath(reviewDir + "/", runTimestamp, source) ==
            reviewDir + "//" + runTimestamp + "/" + FileName(source)
  {
    ReplaceCharAbsent(runTimestamp, '/', '-');
  }

  lemma CanonLiterals(date: string, dirs: string, name: string)
    requires date == "2023-04-05" && dirs == "/archive/2023/04/05/"
    requires name == "2023-04-05_Canon_EOS-R5_IMG_01.jpg"
    ensures date == "2023" + "-" + "04" + "-" + "05"
    ensures dirs == "/archive" + "/" + "2023" + "/" + "04" + "/" + "05" + "/"
    ensures name == date + "_" + ("Canon" + "_" + "EOS-R5") + "_" + "IMG_01.jpg"
  {
  }

  /** The archive path of the worked example, from the hyphenated make and model. */
  lemma CanonArchivePath(make: string, model: string, date: string)
    requires make == "Canon" && model == "EOS-R5" && date == "2023-04-05"
    ensures ArchivePath("/archive", date, DeviceTag(make, model), "IMG_01.jpg") ==
            "/archive/2023/04/05/" + "2023-04-05_Canon_EOS-R5_IMG_01.jpg"
  {
    CanonLiterals(date, "/archive/2023/04/05/", "2023-04-05_Canon_EOS-R5_IMG_01.jpg");
    DeviceTagCases(make, model);
    ArchivePathLayout("/archive", "2023", "04", "05", make + "_" + model, "IMG_01.jpg");
  }

  /** The worked example: make "Canon" and model "EOS R5" as the tags give them,
      dated 2023-04-05, with IMG_01.jpg under /archive: the space in the model becomes
      '-', and the file goes to /archive/2023/04/05/2023-04-05_Canon_EOS-R5_IMG_01.jpg. */
  lemma CanonExample(make: string, model: string, date: string)
    requires make == "Canon" && model == "EOS R5" && date == "2023-04-05"
    ensures var tag := DeviceTag(MetadataReader.Hyphenate(make), MetadataReader.Hyphenate(model));
            ArchivePath("/archive", date, tag, "IMG_01.jpg") ==
            "/archive/2023/04/05/" + "2023-04-05_Canon_EOS-R5_IMG_01.jpg"
  {
    MetadataReader.CanonTagsHyphenated(make, model);
    CanonArchivePath(MetadataReader.Hyphenate(make), MetadataReader.Hyphenate(model), date);
  }
}

=== FILE: orchestrator.dfy ===
/**
 * The run: the empty check over all holding pairs, then for each pair the
 * file loop (classify, date and archive, delete, or queue for review) and
 * the flush of the review queue. The directory listing, the metadata reader
 * and the copy device are parameters; everything else is the model's.
 */
module Orchestrator {
  import opened Wrappers
  import opened Text
  import opened Log
  import opened Classifier
  import opened MetadataReader
  import opened DestinationNamer
  import opened Relocator

  const Version := "1.0.3"

  /** One entry of the holding-pairs file: where files arrive, where they are
      archived, and where files the program cannot place go for review. */
  datatype HoldingPair = HoldingPair(source: string, dest: string, review: string)

  /** What `ImageMetadataReader.ReadMetadata` yields for a file's contents. */
  datatype MetadataRead =
    | Tags(tags: seq<Tag>)   // the tags of every metadata directory, in order
    | ReadIOError            // an IOException, which the program catches
    | ReadRejected           // any other exception (say, an unknown format), which it does not

  /** The world outside the model: the recursive listing of a directory in the
      current file system, the metadata reader, and the copy device. */
  datatype Env = Env(listing: (FileSystem, string) -> seq<string>,
                     metadata: Bytes -> MetadataRead,
                     device: Device)

  /** The program's state: the files, the log lines so far, the pair's review
      queue, and whether an uncaught exception has ended the run. */
  datatype State = State(fs: FileSystem, log: seq<Event>, toReview: seq<string>, crashed: bool)

  /** The capture data of a file, with the events reading it logged. */
  datatype Reading = Reading(capture: Capture, events: seq<Event>)

  /** Some path of the log reports that `p` was removed. */
  predicate Reported(log: seq<Event>, p: string)
  {
    exists i :: 0 <= i < |log| && ReportsRemoval(log[i], p)
  }

  predicate Distinct(xs: seq<string>)
  {
    forall i, j :: 0 <= i < j < |xs| ==> xs[i] != xs[j]
  }

  predicate AllIn(xs: seq<string>, fs: FileSystem)
  {
    forall i :: 0 <= i < |xs| ==> xs[i] in fs
  }

  // ---------------------------------------------------------------------
  // One file

  /** Reading a file's metadata; None is an exception the program does not catch
      (a format the reader rejects, or a date tag too short to index). */
  function ReadFile(env: Env, fs: FileSystem, path: string): (r: Option<Reading>)
    ensures r.None? <==>
              path in fs && (env.metadata(fs[path]).ReadRejected? ||
                             (env.metadata(fs[path]).Tags? && !Parsable(env.metadata(fs[path]).tags)))
    ensures r.Some? && r.value.capture.date != "" ==>
              path in fs && env.metadata(fs[path]).Tags? && r.value.events == [] &&
              r.value.capture == ReadCapture(env.metadata(fs[path]).tags)
  {
    if path !in fs then Some(Reading(Capture("", "", ""), [MetadataReadFailed]))
    else match env.metadata(fs[path])
      case ReadIOError => Some(Reading(Capture("", "", ""), [MetadataReadFailed]))
      case ReadRejected => None
      case Tags(tags) => if Parsable(tags) then Some(Reading(ReadCapture(tags), [])) else None
  }

  /** Where a dated file is archived. */
  function ArchiveDestination(pair: HoldingPair, path: string, c: Capture): (dst: string)
    ensures pair.dest + "/" <= dst
    ensures dst != path
  {
    ArchivePathNeverSource(pair.dest, c.date, DeviceTag(c.make, c.model), path);
    ArchivePath(pair.dest, c.date, DeviceTag(c.make, c.model), FileName(path))
  }

  /** A dated file: name its archive path, then copy, verify and delete. */
  function ArchiveDated(env: Env, pair: HoldingPair, st: State, path: string, c: Capture): (r: State)
    ensures st.log <= r.log && r.toReview == st.toReview
    ensures forall p :: p in st.fs && p != path ==> p in r.fs
    ensures path in st.fs && path !in r.fs ==> Reported(r.log, path)
    ensures path in st.fs && path !in r.fs ==>
              var dst := ArchiveDestination(pair, path, c);
              dst in r.fs && env.device.digest(r.fs[dst]) == env.device.digest(st.fs[path])
  {
    var dst := ArchiveDestination(pair, path, c);
    var moved := ArchiveRelocate(st.fs, path, dst, env.device);
    assert path in st.fs && path !in moved.fs ==>
             dst in moved.fs && env.device.digest(moved.fs[dst]) == env.device.digest(st.fs[path]) by {
      if path in st.fs {
        SourceRemovedOnlyWhenVerified(st.fs, path, dst, env.device);
      }
    }
    var log := st.log + [NewName(path, dst)] + moved.events;
    assert path in st.fs && path !in moved.fs ==> ReportsRemoval(log[|log| - 1], path);
    st.(fs := moved.fs, log := log, crashed := moved.status == Crashed)
  }

  /** The archive branch: read the metadata, then archive the dated file or queue
      the undated one for review. */
  function ArchiveFile(env: Env, pair: HoldingPair, st: State, path: string): (r: State)
    ensures st.log <= r.log
    ensures forall p :: p in st.fs && p != path ==> p in r.fs
    ensures path in st.fs && path !in r.fs ==> Reported(r.log, path)
    ensures r.toReview == st.toReview || (r.toReview == st.toReview + [path] && r.fs == st.fs && r.crashed == st.crashed)
    ensures path in st.fs && path !in r.fs ==>
              exists dst :: dst != path && dst in r.fs && env.device.digest(r.fs[dst]) == env.device.digest(st.fs[path])
  {
    var logged := st.(log := st.log + [Processing(path)]);
    var read := ReadFile(env, st.fs, path);
    if read.None? then logged.(crashed := true)
    else
      var c := read.value.capture;
      var withRead := logged.(log := logged.log + read.value.events);
      if c.date != "" then
        var r := ArchiveDated(env, pair, withRead, path, c);
        assert path in st.fs && path !in r.fs ==> ArchiveDestination(pair, path, c) != path;
        r
      else QueueUndated(withRead, path, c)
  }

  /** An undated file: log what was found and queue it for review. */
  function QueueUndated(st: State, path: string, c: Capture): (r: State)
    ensures r.fs == st.fs && r.toReview == st.toReview + [path] && r.crashed == st.crashed
    ensures st.log <= r.log
  {
    QueueFile(st.(log := st.log + [MissingData(c.date, c.make, c.model)]), path)
  }

  /** The delete branch: remove the file and report, by the directory check, whether it went. */
  function DiscardFile(st: State, path: string): (r: State)
    ensures r.fs == st.fs - {path} && r.toReview == st.toReview && r.crashed == st.crashed
    ensures st.log <= r.log && |r.log| == |st.log| + 1 && ReportsRemoval(r.log[|st.log|], path)
  {
    var fs := st.fs - {path};
    var report := if !DirectoryExists(fs, path) then Deleted(path) else DeleteFailed(path);
    st.(fs := fs, log := st.log + [report])
  }

  /** The review branch: queue the file for the flush at the end of the pair. */
  function QueueFile(st: State, path: string): (r: State)
    ensures r.fs == st.fs && r.toReview == st.toReview + [path] && r.crashed == st.crashed
    ensures st.log <= r.log
  {
    st.(log := st.log + [ToReview(path)], toReview := st.toReview + [path])
  }

  /** One iteration of the file loop. Files whose path contains the review
      directory are skipped without a log line. */
  function ProcessFile(env: Env, pair: HoldingPair, st: State, path: string): (r: State)
    ensures st.log <= r.log
    ensures forall p :: p in st.fs && p != path ==> p in r.fs
    ensures path in st.fs && path !in r.fs ==> Reported(r.log, path)
    ensures r.toReview == st.toReview || (r.toReview == st.toReview + [path] && r.fs == st.fs && r.crashed == st.crashed)
    ensures r.toReview != st.toReview ==> !Contains(path, pair.review)
    ensures !Contains(path, pair.review) && Classify(path) == Review ==> r.toReview == st.toReview + [path]
    ensures path in st.fs && path !in r.fs ==>
              Classify(path) == Discard ||
              exists dst :: dst != path && dst in r.fs && env.device.digest(r.fs[dst]) == env.device.digest(st.fs[path])
  {
    if Contains(path, pair.review) then st
    else
      var seen := st.(log := st.log + [FileSeen(path)]);
      match Classify(path)
      case Archive => ArchiveFile(env, pair, seen, path)
      case Discard =>
        var r := DiscardFile(seen, path);
        assert ReportsRemoval(r.log[|seen.log|], path);
        r
      case Review => QueueFile(seen, path)
  }

  /** A later log keeps every removal an earlier one reported. */
  lemma ReportedGrows(log: seq<Event>, longer: seq<Event>, p: string)
    requires log <= longer && Reported(log, p)
    ensures Reported(longer, p)
  {
    var i :| 0 <= i < |log| && ReportsRemoval(log[i], p);
    assert longer[i] == log[i];
  }

  /** The file loop of one pair, over the listing taken before the loop; it stops
      at the first uncaught exception. */
  function FileLoop(env: Env, pair: HoldingPair, st: State, files: seq<string>): (r: State)
    ensures st.log <= r.log
    ensures forall p :: p in st.fs && p !in r.fs ==> Reported(r.log, p)
    ensures st.crashed ==> r == st
    ensures st.toReview <= r.toReview
    ensures forall i :: |st.toReview| <= i < |r.toReview| ==>
              r.toReview[i] in files && !Contains(r.toReview[i], pair.review)
    ensures !r.crashed ==>
              forall f :: f in files && !Contains(f, pair.review) && Classify(f) == Review ==> f in r.toReview
    decreases |files|
  {
    if files == [] || st.crashed then st
    else
      var next := ProcessFile(env, pair, st, files[0]);
      var r := FileLoop(env, pair, next, files[1..]);
      assert forall i :: |st.toReview| <= i < |r.toReview| ==>
               r.toReview[i] in files && !Contains(r.toReview[i], pair.review) by {
        forall i | |st.toReview| <= i < |r.toReview|
          ensures r.toReview[i] in files && !Contains(r.toReview[i], pair.review)
        {
          if i < |next.toReview| {
            assert r.toReview[i] == next.toReview[i] == files[0];
          } else {
            assert r.toReview[i] in files[1..];
          }
        }
      }
      assert !r.crashed ==>
               forall f :: f in files && !Contains(f, pair.review) && Classify(f) == Review ==> f in r.toReview by {
        if !r.crashed {
          forall f | f in files && !Contains(f, pair.review) && Classify(f) == Review
            ensures f in r.toReview
          {
            if f == files[0] {
              assert next.toReview[|st.toReview|] == f;
              assert r.toReview[|st.toReview|] == f;
            } else {
              assert f in files[1..];
            }
          }
        }
      }
      assert forall p :: p in st.fs && p !in r.fs ==> Reported(r.log, p) by {
        forall p | p in st.fs && p !in r.fs
          ensures Reported(r.log, p)
        {
          if p !in next.fs {
            assert p == files[0];
            ReportedGrows(next.log, r.log, p);
          }
        }
      }
      r
  }

  /** The review flush: move each queued file into the run's review folder. */
  function FlushReview(env: Env, pair: HoldingPair, runTimestamp: string, st: State, queue: seq<string>): (r: State)
    ensures st.log <= r.log && r.toReview == st.toReview
    ensures forall p :: p in st.fs && p !in r.fs ==> Reported(r.log, p)
    ensures st.crashed ==> r == st
    decreases |queue|
  {
    if queue == [] || st.crashed then st
    else
      var src := queue[0];
      var moved := ReviewRelocate(st.fs, src, ReviewPath(pair.review, runTimestamp, src), env.device);
      var next := st.(fs := moved.fs, log := st.log + moved.events, crashed := moved.status == Crashed);
      assert forall p :: p in st.fs && p !in next.fs ==> Reported(next.log, p) by {
        forall p | p in st.fs && p !in next.fs
          ensures Reported(next.log, p)
        {
          assert p == src && moved.status == Verified;
          assert ReportsRemoval(next.log[|next.log| - 1], p);
        }
      }
      var r := FlushReview(env, pair, runTimestamp, next, queue[1..]);
      assert forall p :: p in st.fs && p !in r.fs ==> Reported(r.log, p) by {
        forall p | p in st.fs && p !in r.fs
          ensures Reported(r.log, p)
        {
          if p !in next.fs {
            ReportedGrows(next.log, r.log, p);
          }
        }
      }
      r
  }

  /** The first half of a pair: log it, empty the review queue, and run the file
      loop over the pair's listing. */
  function PairFiles(env: Env, st: State, pair: HoldingPair): (looped: State)
    ensures st.log + [PairStart(pair.source, pair.dest)] <= looped.log
    ensures forall i :: 0 <= i < |looped.toReview| ==>
              looped.toReview[i] in env.listing(st.fs, pair.source) && !Contains(looped.toReview[i], pair.review)
  {
    var start := st.(log := st.log + [PairStart(pair.source, pair.dest)], toReview := []);
    FileLoop(env, pair, start, env.listing(start.fs, pair.source))
  }

  /** One holding pair: the file loop, then the flush of the queue it filled. */
  function ProcessPair(env: Env, runTimestamp: string, st: State, pair: HoldingPair): (r: State)
    ensures st.log + [PairStart(pair.source, pair.dest)] <= r.log
    ensures forall p :: p in st.fs && p !in r.fs ==> Reported(r.log, p)
    ensures st.crashed ==> r.crashed && r.fs == st.fs
    ensures forall i :: 0 <= i < |r.toReview| ==>
              r.toReview[i] in env.listing(st.fs, pair.source) && !Contains(r.toReview[i], pair.review)
  {
    var looped := PairFiles(env, st, pair);
    var r := FlushReview(env, pair, runTimestamp, looped, looped.toReview);
    assert forall p :: p in st.fs && p !in r.fs ==> Reported(r.log, p) by {
      forall p | p in st.fs && p !in r.fs
        ensures Reported(r.log, p)
      {
        if p !in looped.fs {
          ReportedGrows(looped.log, r.log, p);
        }
      }
    }
    r
  }

  /** Every holding pair in turn; a crash ends the run. */
  function PairLoop(env: Env, runTimestamp: string, st: State, pairs: seq<HoldingPair>): (r: State)
    ensures st.log <= r.log
    ensures pairs != [] ==> st.log + [PairStart(pairs[0].source, pairs[0].dest)] <= r.log
    ensures forall p :: p in st.fs && p !in r.fs ==> Reported(r.log, p)
    decreases |pairs|
  {
    if pairs == [] then st
    else
      var next := ProcessPair(env, runTimestamp, st, pairs[0]);
      var r := if next.crashed then next else PairLoop(env, runTimestamp, next, pairs[1..]);
      assert forall p :: p in st.fs && p !in r.fs ==> Reported(r.log, p) by {
        forall p | p in st.fs && p !in r.fs
          ensures Reported(r.log, p)
        {
          if p !in next.fs {
            ReportedGrows(next.log, r.log, p);
          }
        }
      }
      r
  }

  // ---------------------------------------------------------------------
  // The run

  /** Whether a file of the listing still waits outside the review directory. */
  function AnyPending(files: seq<string>, review: string): (pending: bool)
    ensures pending <==> exists i :: 0 <= i < |files| && !Contains(files[i], review)
    decreases |files|
  {
    if files == [] then false
    else
      var rest := AnyPending(files[1..], review);
      assert rest <==> exists i :: 1 <= i < |files| && !Contains(files[i], review) by {
        if rest {
          var i :| 0 <= i < |files[1..]| && !Contains(files[1..][i], review);
          assert files[i + 1] == files[1..][i];
        }
        if exists i :: 1 <= i < |files| && !Contains(files[i], review) {
          var i :| 1 <= i < |files| && !Contains(files[i], review);
          assert files[1..][i - 1] == files[i];
        }
      }
      !Contains(files[0], review) || rest
  }

  /** The empty check before any pair is processed: no pair's listing holds a
      file outside that pair's review directory. */
  function StillEmpty(env: Env, fs: FileSystem, pairs: seq<HoldingPair>): (empty: bool)
    decreases |pairs|
  {
    if pairs == [] then true
    else !AnyPending(env.listing(fs, pairs[0].source), pairs[0].review) && StillEmpty(env, fs, pairs[1..])
  }

  /** The empty check, stated without the loop. */
  predicate NothingToDo(env: Env, fs: FileSystem, pairs: seq<HoldingPair>)
  {
    forall k, f :: 0 <= k < |pairs| && f in env.listing(fs, pairs[k].source) ==> Contains(f, pairs[k].review)
  }

  /** The loop the program runs for the empty check computes the quantified condition. */
  lemma {:induction false} StillEmptyMeansNothingToDo(env: Env, fs: FileSystem, pairs: seq<HoldingPair>)
    ensures StillEmpty(env, fs, pairs) <==> NothingToDo(env, fs, pairs)
    decreases |pairs|
  {
    if pairs != [] {
      StillEmptyMeansNothingToDo(env, fs, pairs[1..]);
      var files := env.listing(fs, pairs[0].source);
      if NothingToDo(env, fs, pairs) {
        forall i | 0 <= i < |files| ensures Contains(files[i], pairs[0].review) {
          assert files[i] in files;
        }
        forall k, f | 0 <= k < |pairs[1..]| && f in env.listing(fs, pairs[1..][k].source)
          ensures Contains(f, pairs[1..][k].review)
        {
          assert pairs[1..][k] == pairs[k + 1];
        }
      }
      if StillEmpty(env, fs, pairs) {
        forall k, f | 0 <= k < |pairs| && f in env.listing(fs, pairs[k].source)
          ensures Contains(f, pairs[k].review)
        {
          if k == 0 {
            var i :| 0 <= i < |files| && files[i] == f;
          } else {
            assert pairs[1..][k - 1] == pairs[k];
          }
        }
      }
    }
  }

  /** The opening lines of every run's log. */
  function Header(runTimestamp: string): (lines: seq<Event>)
  {
    [Blank, NewStart, Info("Photo Organiser Pro - Version " + Version), Info("Current Date Time - " + runTimestamp)]
  }

  /** A whole run over the holding pairs. */
  function Run(env: Env, fs: FileSystem, runTimestamp: string, pairs: seq<HoldingPair>): (r: State)
    ensures Header(runTimestamp) <= r.log
    ensures forall p :: p in fs && p !in r.fs ==> Reported(r.log, p)
  {
    var start := State(fs, Header(runTimestamp), [], false);
    if StillEmpty(env, fs, pairs) then start.(log := start.log + [NothingToProcess])
    else PairLoop(env, runTimestamp, start, pairs)
  }

  // ---------------------------------------------------------------------
  // Properties

  /** A file outside the review directory is queued for review exactly when its
      extension is unknown, or it is a media file whose metadata yields no date. */
  lemma ProcessFileQueues(env: Env, pair: HoldingPair, st: State, path: string)
    requires !Contains(path, pair.review)
    ensures var r := ProcessFile(env, pair, st, path);
            r.toReview == st.toReview + [path] <==>
              Classify(path) == Review ||
              (Classify(path) == Archive && ReadFile(env, st.fs, path).Some? &&
               ReadFile(env, st.fs, path).value.capture.date == "")
  {
    var r := ProcessFile(env, pair, st, path);
    assert |st.toReview + [path]| != |st.toReview|;
  }

  /** A dated media file on a healthy device is moved to its archive path: the
      archive holds its contents and the original is gone, nothing else changes. */
  lemma ArchivedFileMoves(env: Env, pair: HoldingPair, st: State, path: string)
    requires !Contains(path, pair.review) && Classify(path) == Archive && path in st.fs
    requires env.metadata(st.fs[path]).Tags? && Parsable(env.metadata(st.fs[path]).tags)
    requires ReadCapture(env.metadata(st.fs[path]).tags).date != ""
    requires forall d :: env.device.copyOk(path, d)
    ensures var dst := ArchiveDestination(pair, path, ReadCapture(env.metadata(st.fs[path]).tags));
            var r := ProcessFile(env, pair, st, path);
            r.fs == st.fs[dst := st.fs[path]] - {path} && !r.crashed && r.toReview == st.toReview
  {
    var dst := ArchiveDestination(pair, path, ReadCapture(env.metadata(st.fs[path]).tags));
    SuccessfulCopyMoves(st.fs, path, dst, env.device);
  }

  /** A sidecar file is deleted, and in a well-formed file system the log says so. */
  lemma DiscardedFileDeleted(env: Env, pair: HoldingPair, st: State, path: string)
    requires !Contains(path, pair.review) && Classify(path) == Discard
    requires WellFormed(st.fs) && path in st.fs
    ensures var r := ProcessFile(env, pair, st, path);
            r.fs == st.fs - {path} && r.log == st.log + [FileSeen(path), Deleted(path)]
  {
    DeleteCheckAlwaysPasses(st.fs, path);
  }

  /** A file under the review directory is left alone and not logged. */
  lemma ReviewFolderSkipped(env: Env, pair: HoldingPair, st: State, path: string)
    requires Contains(path, pair.review)
    ensures ProcessFile(env, pair, st, path) == st
  {
  }

  /** The run logs "nothing to process" and touches no file exactly when the
      empty check finds no pair with a file outside its review directory. */
  lemma EmptyRunIffNothingToDo(env: Env, fs: FileSystem, runTimestamp: string, pairs: seq<HoldingPair>)
    ensures var r := Run(env, fs, runTimestamp, pairs);
            r.log == Header(runTimestamp) + [NothingToProcess] <==> NothingToDo(env, fs, pairs)
    ensures NothingToDo(env, fs, pairs) ==> Run(env, fs, runTimestamp, pairs).fs == fs
  {
    StillEmptyMeansNothingToDo(env, fs, pairs);
    var r := Run(env, fs, runTimestamp, pairs);
    if !StillEmpty(env, fs, pairs) {
      var h := Header(runTimestamp);
      assert pairs != [];
      assert (h + [PairStart(pairs[0].source, pairs[0].dest)])[|h|] == PairStart(pairs[0].source, pairs[0].dest);
      assert r.log[|h|] == PairStart(pairs[0].source, pairs[0].dest);
    }
  }

  // ---------------------------------------------------------------------
  // No uncaught exception

  /** An environment in which nothing the program does not catch can happen:
      listings name distinct existing files, every copy succeeds, and the
      metadata reader accepts every file and yields date tags long enough to index. */
  ghost predicate Healthy(env: Env)
  {
    && (forall fs, dir :: AllIn(env.listing(fs, dir), fs) && Distinct(env.listing(fs, dir)))
    && (forall src, dst :: env.device.copyOk(src, dst))
    && (forall b :: env.metadata(b) != ReadRejected && (env.metadata(b).Tags? ==> Parsable(env.metadata(b).tags)))
  }

  /** The file loop keeps the queue inside the file system and free of repeats,
      and never crashes, when the files still to visit exist, are distinct, and
      are not yet queued. */
  lemma {:induction false} FileLoopSafe(env: Env, pair: HoldingPair, st: State, files: seq<string>)
    requires Healthy(env) && !st.crashed
    requires AllIn(files, st.fs) && Distinct(files)
    requires AllIn(st.toReview, st.fs) && Distinct(st.toReview)
    requires forall i, j :: 0 <= i < |files| && 0 <= j < |st.toReview| ==> files[i] != st.toReview[j]
    ensures var r := FileLoop(env, pair, st, files);
            !r.crashed && AllIn(r.toReview, r.fs) && Distinct(r.toReview)
    decreases |files|
  {
    if files != [] {
      var path := files[0];
      var next := ProcessFile(env, pair, st, path);
      assert !next.crashed by {
        if !Contains(path, pair.review) && Classify(path) == Archive {
          var read := ReadFile(env, st.fs, path);
          assert read.Some?;
          if read.value.capture.date != "" {
            ArchiveCrashes(st.fs, path, ArchiveDestination(pair, path, read.value.capture), env.device);
          }
        }
      }
      var rest := files[1..];
      assert AllIn(rest, next.fs) by {
        forall i | 0 <= i < |rest| ensures rest[i] in next.fs {
          assert rest[i] == files[i + 1] && files[i + 1] in st.fs && files[i + 1] != path;
        }
      }
      assert Distinct(rest) by {
        forall i, j | 0 <= i < j < |rest| ensures rest[i] != rest[j] {
          assert rest[i] == files[i + 1] && rest[j] == files[j + 1];
        }
      }
      assert AllIn(next.toReview, next.fs) && Distinct(next.toReview) by {
        if next.toReview != st.toReview {
          forall j | 0 <= j < |st.toReview| ensures st.toReview[j] != path {
            assert files[0] != st.toReview[j];
          }
        } else {
          forall j | 0 <= j < |st.toReview| ensures st.toReview[j] in next.fs {
            assert files[0] != st.toReview[j];
          }
        }
      }
      assert forall i, j :: 0 <= i < |rest| && 0 <= j < |next.toReview| ==> rest[i] != next.toReview[j] by {
        forall i, j | 0 <= i < |rest| && 0 <= j < |next.toReview| ensures rest[i] != next.toReview[j] {
          assert rest[i] == files[i + 1];
          if j < |st.toReview| {
            assert next.toReview[j] == st.toReview[j];
          } else {
            assert next.toReview[j] == path;
          }
        }
      }
      FileLoopSafe(env, pair, next, rest);
    }
  }

  /** The review flush never crashes on distinct queued files that exist. */
  lemma {:induction false} FlushReviewSafe(env: Env, pair: HoldingPair, runTimestamp: string, st: State, queue: seq<string>)
    requires Healthy(env) && !st.crashed
    requires AllIn(queue, st.fs) && Distinct(queue)
    ensures !FlushReview(env, pair, runTimestamp, st, queue).crashed
    decreases |queue|
  {
    if queue != [] {
      var src := queue[0];
      var dst := ReviewPath(pair.review, runTimestamp, src);
      ReviewCrashes(st.fs, src, dst, env.device);
      var moved := ReviewRelocate(st.fs, src, dst, env.device);
      var next := st.(fs := moved.fs, log := st.log + moved.events, crashed := moved.status == Crashed);
      var rest := queue[1..];
      assert AllIn(rest, next.fs) by {
        forall i | 0 <= i < |rest| ensures rest[i] in next.fs {
          assert rest[i] == queue[i + 1] && queue[i + 1] in st.fs && queue[i + 1] != src;
        }
      }
      assert Distinct(rest) by {
        forall i, j | 0 <= i < j < |rest| ensures rest[i] != rest[j] {
          assert rest[i] == queue[i + 1] && rest[j] == queue[j + 1];
        }
      }
      FlushReviewSafe(env, pair, runTimestamp, next, rest);
    }
  }

  /** In a healthy environment a run never ends in an uncaught exception, so its
      log reaches the log file. */
  lemma {:induction false} PairLoopSafe(env: Env, runTimestamp: string, st: State, pairs: seq<HoldingPair>)
    requires Healthy(env) && !st.crashed
    ensures !PairLoop(env, runTimestamp, st, pairs).crashed
    decreases |pairs|
  {
    if pairs != [] {
      var pair := pairs[0];
      var start := st.(log := st.log + [PairStart(pair.source, pair.dest)], toReview := []);
      var files := env.listing(start.fs, pair.source);
      FileLoopSafe(env, pair, start, files);
      var looped := PairFiles(env, st, pair);
      FlushReviewSafe(env, pair, runTimestamp, looped, looped.toReview);
      PairLoopSafe(env, runTimestamp, ProcessPair(env, runTimestamp, st, pair), pairs[1..]);
    }
  }

  /** A run in a healthy environment never crashes. */
  lemma RunNeverCrashes(env: Env, fs: FileSystem, runTimestamp: string, pairs: seq<HoldingPair>)
    requires Healthy(env)
    ensures !Run(env, fs, runTimestamp, pairs).crashed
  {
    PairLoopSafe(env, runTimestamp, State(fs, Header(runTimestamp), [], false), pairs);
  }

  // ---------------------------------------------------------------------
  // Review name collision

  /** Moving `a` and then `b` onto one destination keeps only `b`'s contents. */
  lemma TwoMovesOneDestination(fs: FileSystem, a: string, b: string, dst: string)
    requires a in fs && b in fs && a != b && a != dst && b != dst
    ensures var fs1 := fs[dst := fs[a]] - {a};
            b in fs1 && fs1[dst := fs1[b]] - {b} == (fs - {a, b})[dst := fs[b]]
  {
  }

  /** Two queued files with one name in different folders share a review path,
      so the second copy overwrites the first and the first file's contents are
      lost, although both originals are deleted after "successful" checks. */
  lemma ReviewNameCollision(env: Env, pair: HoldingPair, runTimestamp: string, st: State, a: string, b: string)
    requires !st.crashed && a != b && FileName(a) == FileName(b)
    requires a in st.fs && b in st.fs
    requires !Contains(a, pair.review) && !Contains(b, pair.review)
    requires forall s, d :: env.device.copyOk(s, d)
    ensures var dst := ReviewPath(pair.review, runTimestamp, a);
            var r := FlushReview(env, pair, runTimestamp, st, [a, b]);
            !r.crashed && r.fs == (st.fs - {a, b})[dst := st.fs[b]]
  {
    var dst := ReviewPath(pair.review, runTimestamp, a);
    ReviewPathByName(pair.review, runTimestamp, a, b);
    ReviewPathNeverSource(pair.review, runTimestamp, a);
    ReviewPathNeverSource(pair.review, runTimestamp, b);
    TwoMovesOneDestination(st.fs, a, b, dst);
    SuccessfulCopyMoves(st.fs, a, dst, env.device);
    var first := ReviewRelocate(st.fs, a, dst, env.device);
    var st1 := st.(fs := first.fs, log := st.log + first.events, crashed := false);
    assert [a, b][0] == a && [a, b][1..] == [b];
    FlushStep(env, pair, runTimestamp, st, [a, b]);
    SuccessfulCopyMoves(st1.fs, b, dst, env.device);
    var second := ReviewRelocate(st1.fs, b, dst, env.device);
    var st2 := st1.(fs := second.fs, log := st1.log + second.events, crashed := false);
    assert [b][0] == b && [b][1..] == [];
    FlushStep(env, pair, runTimestamp, st1, [b]);
    assert FlushReview(env, pair, runTimestamp, st, [a, b]) == st2;
  }

  // ---------------------------------------------------------------------
  // What the review flush does

  /** No two queued files share a file name. */
  predicate DistinctNames(queue: seq<string>)
  {
    forall i, j :: 0 <= i < j < |queue| ==> FileName(queue[i]) != FileName(queue[j])
  }

  /** No queued file lies under the review directory. */
  predicate OutsideReview(queue: seq<string>, review: string)
  {
    forall i :: 0 <= i < |queue| ==> !Contains(queue[i], review)
  }

  /** `p` is the review path of some queued file. */
  predicate IsReviewTarget(p: string, review: string, runTimestamp: string, queue: seq<string>)
  {
    exists i :: 0 <= i < |queue| && p == ReviewPath(review, runTimestamp, queue[i])
  }

  /** `after` is `before` with every queued file moved to its review path: the
      original is gone, the review path holds its bytes, and every other path is
      unchanged. */
  ghost predicate MovedToReview(before: FileSystem, after: FileSystem, queue: seq<string>, review: string, runTimestamp: string)
  {
    && (forall i :: 0 <= i < |queue| ==> queue[i] !in after)
    && (forall i :: 0 <= i < |queue| ==>
          queue[i] in before && ReviewPath(review, runTimestamp, queue[i]) in after &&
          after[ReviewPath(review, runTimestamp, queue[i])] == before[queue[i]])
    && (forall p :: p !in queue && !IsReviewTarget(p, review, runTimestamp, queue) ==>
          (p in after <==> p in before) && (p in before ==> after[p] == before[p]))
  }

  /** Every review path lies under the review directory, so none is a queued file. */
  lemma ReviewTargetsInside(review: string, runTimestamp: string, queue: seq<string>)
    requires OutsideReview(queue, review)
    ensures forall i, j :: 0 <= i < |queue| && 0 <= j < |queue| ==>
              ReviewPath(review, runTimestamp, queue[i]) != queue[j]
  {
    forall i, j | 0 <= i < |queue| && 0 <= j < |queue|
      ensures ReviewPath(review, runTimestamp, queue[i]) != queue[j]
    {
      ReviewPathExcludedFromScan(review, runTimestamp, queue[i]);
    }
  }

  /** After the head of the queue is moved, the rest of the queue still meets the
      flush's premises. */
  lemma QueueTailPremises(before: FileSystem, mid: FileSystem, queue: seq<string>, review: string, runTimestamp: string)
    requires |queue| > 0 && AllIn(queue, before) && DistinctNames(queue) && OutsideReview(queue, review)
    requires mid == before[ReviewPath(review, runTimestamp, queue[0]) := before[queue[0]]] - {queue[0]}
    ensures AllIn(queue[1..], mid) && DistinctNames(queue[1..]) && OutsideReview(queue[1..], review)
  {
    var rest := queue[1..];
    forall i | 0 <= i < |rest| ensures rest[i] in mid {
      assert rest[i] == queue[i + 1] && FileName(queue[0]) != FileName(queue[i + 1]);
    }
    forall i, j | 0 <= i < j < |rest| ensures FileName(rest[i]) != FileName(rest[j]) {
      assert rest[i] == queue[i + 1] && rest[j] == queue[j + 1];
    }
    forall i | 0 <= i < |rest| ensures !Contains(rest[i], review) {
      assert rest[i] == queue[i + 1];
    }
  }

  /** Neither the head of the queue nor its review path is a file of the rest of the
      queue or a review path of one. */
  lemma HeadUntouched(queue: seq<string>, review: string, runTimestamp: string)
    requires |queue| > 0 && DistinctNames(queue) && OutsideReview(queue, review)
    ensures var dst := ReviewPath(review, runTimestamp, queue[0]);
            queue[0] != dst && queue[0] !in queue[1..] && dst !in queue[1..] &&
            !IsReviewTarget(queue[0], review, runTimestamp, queue[1..]) &&
            !IsReviewTarget(dst, review, runTimestamp, queue[1..])
  {
    var src := queue[0];
    var dst := ReviewPath(review, runTimestamp, src);
    var rest := queue[1..];
    ReviewTargetsInside(review, runTimestamp, queue);
    forall i | 0 <= i < |rest|
      ensures rest[i] != src && rest[i] != dst
      ensures ReviewPath(review, runTimestamp, rest[i]) != src && ReviewPath(review, runTimestamp, rest[i]) != dst
    {
      assert rest[i] == queue[i + 1] && FileName(src) != FileName(queue[i + 1]);
      assert FileName(ReviewPath(review, runTimestamp, rest[i])) == FileName(rest[i]);
    }
  }

  /** Moving the head and then the rest of the queue moves the whole queue. */
  lemma MovedToReviewCons(before: FileSystem, mid: FileSystem, after: FileSystem, queue: seq<string>,
                          review: string, runTimestamp: string)
    requires |queue| > 0 && AllIn(queue, before) && DistinctNames(queue) && OutsideReview(queue, review)
    requires mid == before[ReviewPath(review, runTimestamp, queue[0]) := before[queue[0]]] - {queue[0]}
    requires MovedToReview(mid, after, queue[1..], review, runTimestamp)
    ensures MovedToReview(before, after, queue, review, runTimestamp)
  {
    var src := queue[0];
    var dst := ReviewPath(review, runTimestamp, src);
    var rest := queue[1..];
    HeadUntouched(queue, review, runTimestamp);
    forall i | 0 <= i < |queue|
      ensures queue[i] !in after
      ensures queue[i] in before && ReviewPath(review, runTimestamp, queue[i]) in after &&
              after[ReviewPath(review, runTimestamp, queue[i])] == before[queue[i]]
    {
      if i > 0 {
        assert queue[i] == rest[i - 1];
      }
    }
    forall p | p !in queue && !IsReviewTarget(p, review, runTimestamp, queue)
      ensures (p in after <==> p in before) && (p in before ==> after[p] == before[p])
    {
      assert p != src && p != dst && p !in rest;
    }
  }

  /** On a device whose copies succeed, the flush moves every queued file (existing,
      outside the review directory, no two with one name) to its review path, and
      nothing crashes. */
  lemma {:induction false} FlushReviewMoves(env: Env, pair: HoldingPair, runTimestamp: string, st: State, queue: seq<string>)
    requires !st.crashed && forall s, d :: env.device.copyOk(s, d)
    requires AllIn(queue, st.fs) && DistinctNames(queue) && OutsideReview(queue, pair.review)
    ensures var r := FlushReview(env, pair, runTimestamp, st, queue);
            !r.crashed && MovedToReview(st.fs, r.fs, queue, pair.review, runTimestamp)
    decreases |queue|
  {
    if queue != [] {
      var src := queue[0];
      var dst := ReviewPath(pair.review, runTimestamp, src);
      ReviewTargetsInside(pair.review, runTimestamp, queue);
      SuccessfulCopyMoves(st.fs, src, dst, env.device);
      var moved := ReviewRelocate(st.fs, src, dst, env.device);
      var next := st.(fs := moved.fs, log := st.log + moved.events, crashed := moved.status == Crashed);
      QueueTailPremises(st.fs, next.fs, queue, pair.review, runTimestamp);
      FlushReviewMoves(env, pair, runTimestamp, next, queue[1..]);
      FlushStep(env, pair, runTimestamp, st, queue);
      MovedToReviewCons(st.fs, next.fs, FlushReview(env, pair, runTimestamp, next, queue[1..]).fs,
                        queue, pair.review, runTimestamp);
    }
  }

  // ---------------------------------------------------------------------
  // The review flush of a pair, start to end

  /** No two listed files outside the review directory share a file name. */
  predicate NamesDistinctOutside(files: seq<string>, review: string)
  {
    forall a, b :: a in files && b in files && a != b && !Contains(a, review) && !Contains(b, review) ==>
      FileName(a) != FileName(b)
  }

  /** A queue of distinct listed files outside the review directory inherits the
      listing's distinct names. */
  lemma QueueNamesDistinct(queue: seq<string>, files: seq<string>, review: string)
    requires Distinct(queue) && NamesDistinctOutside(files, review)
    requires forall i :: 0 <= i < |queue| ==> queue[i] in files && !Contains(queue[i], review)
    ensures DistinctNames(queue) && OutsideReview(queue, review)
  {
  }

  /** In a healthy environment, when the listed files outside the review directory
      have distinct names, a pair's flush moves exactly the files its own loop
      queued (listed files outside the review directory, including every one with
      an unknown extension) to their review paths, and changes no other path. */
  lemma PairReviewMoves(env: Env, runTimestamp: string, st: State, pair: HoldingPair)
    requires Healthy(env) && !st.crashed
    requires NamesDistinctOutside(env.listing(st.fs, pair.source), pair.review)
    ensures var looped := PairFiles(env, st, pair);
            var r := ProcessPair(env, runTimestamp, st, pair);
            !r.crashed && r.toReview == looped.toReview &&
            MovedToReview(looped.fs, r.fs, r.toReview, pair.review, runTimestamp)
    ensures var files := env.listing(st.fs, pair.source);
            var r := ProcessPair(env, runTimestamp, st, pair);
            forall f :: f in files && !Contains(f, pair.review) && Classify(f) == Review ==> f in r.toReview
  {
    var start := st.(log := st.log + [PairStart(pair.source, pair.dest)], toReview := []);
    var files := env.listing(start.fs, pair.source);
    FileLoopSafe(env, pair, start, files);
    var looped := PairFiles(env, st, pair);
    QueueNamesDistinct(looped.toReview, files, pair.review);
    FlushReviewMoves(env, pair, runTimestamp, looped, looped.toReview);
  }

  /** A media file with no date, alone in its pair's listing, ends in the run's review
      folder: its bytes are at `{review}/{stamp}/{name}`, the original is gone, and
      nothing else changes. */
  lemma UndatedMediaReviewed(env: Env, runTimestamp: string, st: State, pair: HoldingPair, path: string)
    requires !st.crashed && forall s, d :: env.device.copyOk(s, d)
    requires env.listing(st.fs, pair.source) == [path] && path in st.fs
    requires !Contains(path, pair.review) && Classify(path) == Archive
    requires env.metadata(st.fs[path]).Tags? && Parsable(env.metadata(st.fs[path]).tags)
    requires ReadCapture(env.metadata(st.fs[path]).tags).date == ""
    ensures var r := ProcessPair(env, runTimestamp, st, pair);
            !r.crashed && MovedToReview(st.fs, r.fs, [path], pair.review, runTimestamp)
  {
    var start := st.(log := st.log + [PairStart(pair.source, pair.dest)], toReview := []);
    var next := ProcessFile(env, pair, start, path);
    assert next.toReview == [path] && next.fs == st.fs && !next.crashed by {
      ProcessFileQueues(env, pair, start, path);
    }
    assert [path][0] == path && [path][1..] == [];
    assert FileLoop(env, pair, next, []) == next;
    var looped := PairFiles(env, st, pair);
    assert looped == FileLoop(env, pair, next, []);
    FlushReviewMoves(env, pair, runTimestamp, looped, [path]);
  }

  // ---------------------------------------------------------------------
  // Archive name collision

  /** Two dated files with one name in different folders, with one capture (one
      device, one day), share an archive path: the second copy overwrites the first
      and both originals are deleted, so the first file's contents are lost. */
  lemma ArchiveNameCollision(env: Env, pair: HoldingPair, st: State, a: string, b: string, c: Capture)
    requires a != b && FileName(a) == FileName(b) && a in st.fs && b in st.fs
    requires forall s, d :: env.device.copyOk(s, d)
    ensures var dst := ArchiveDestination(pair, a, c);
            var r := ArchiveDated(env, pair, ArchiveDated(env, pair, st, a, c), b, c);
            !r.crashed && r.fs == (st.fs - {a, b})[dst := st.fs[b]]
  {
    var dst := ArchiveDestination(pair, a, c);
    assert ArchiveDestination(pair, b, c) == dst;
    SuccessfulCopyMoves(st.fs, a, dst, env.device);
    var st1 := ArchiveDated(env, pair, st, a, c);
    SuccessfulCopyMoves(st1.fs, b, dst, env.device);
    TwoMovesOneDestination(st.fs, a, b, dst);
  }

  /** The same collision through the file loop's archive branch: two media files
      whose metadata give one date, make and model. */
  lemma ArchiveLoopCollision(env: Env, pair: HoldingPair, st: State, a: string, b: string)
    requires a != b && FileName(a) == FileName(b) && a in st.fs && b in st.fs
    requires !Contains(a, pair.review) && !Contains(b, pair.review)
    requires Classify(a) == Archive && Classify(b) == Archive
    requires env.metadata(st.fs[a]).Tags? && Parsable(env.metadata(st.fs[a]).tags)
    requires env.metadata(st.fs[b]) == env.metadata(st.fs[a])
    requires ReadCapture(env.metadata(st.fs[a]).tags).date != ""
    requires forall s, d :: env.device.copyOk(s, d)
    ensures var dst := ArchiveDestination(pair, a, ReadCapture(env.metadata(st.fs[a]).tags));
            var r := ProcessFile(env, pair, ProcessFile(env, pair, st, a), b);
            !r.crashed && r.fs == (st.fs - {a, b})[dst := st.fs[b]]
  {
    var c := ReadCapture(env.metadata(st.fs[a]).tags);
    var dst := ArchiveDestination(pair, a, c);
    ArchiveNameCollision(env, pair, st, a, b, c);
    ArchivedFileMoves(env, pair, st, a);
    var st1 := ProcessFile(env, pair, st, a);
    assert b in st1.fs && st1.fs[b] == st.fs[b];
    ArchivedFileMoves(env, pair, st1, b);
  }

  /** One step of the review flush, spelled out. */
  lemma FlushStep(env: Env, pair: HoldingPair, runTimestamp: string, st: State, queue: seq<string>)
    requires !st.crashed && queue != []
    ensures var moved := ReviewRelocate(st.fs, queue[0], ReviewPath(pair.review, runTimestamp, queue[0]), env.device);
            var next := st.(fs := moved.fs, log := st.log + moved.events, crashed := moved.status == Crashed);
            FlushReview(env, pair, runTimestamp, st, queue) == FlushReview(env, pair, runTimestamp, next, queue[1..])
  {
  }
}

=== FILE: relocator.dfy ===
/**
 * Copy, verify and delete: the step the program takes for every file it
 * archives and for every file it moves to review. The file system is a map
 * from paths to contents, the MD5 digest is a function of the contents, and
 * whether a copy raises an IOException is decided by an oracle.
 */
module Relocator {
  import opened Wrappers
  import opened Log

  newtype byte = x: int | 0 <= x < 256
  type Bytes = seq<byte>
  type FileSystem = map<string, Bytes>

  /** What the model cannot see: whether `File.Copy(src, dst, true)` raises an
      IOException for an existing, distinct source, and the checksum text
      (MD5, hex without dashes) of a file's contents. */
  datatype Device = Device(copyOk: (string, string) -> bool, digest: Bytes -> string)

  /** How a relocation ended. `Crashed` is an exception nobody catches. */
  datatype Status = Verified | Mismatch | DestMissing | Crashed

  datatype Relocation = Relocation(fs: FileSystem, events: seq<Event>, status: Status)

  /** `File.Copy(src, dst, overwrite: true)`; None is the IOException the caller
      catches (a missing source, a file copied onto itself, or a device failure). */
  function Copy(fs: FileSystem, src: string, dst: string, dev: Device): (r: Option<FileSystem>)
    ensures r.Some? <==> src in fs && src != dst && dev.copyOk(src, dst)
    ensures r.Some? ==> r.value.Keys == fs.Keys + {dst} && r.value[dst] == fs[src]
    ensures r.Some? ==> forall p :: p in fs && p != dst ==> r.value[p] == fs[p]
  {
    if src in fs && src != dst && dev.copyOk(src, dst) then Some(fs[dst := fs[src]]) else None
  }

  /** The checksum of a file, read with `File.OpenRead`; None when the file is missing,
      which raises an exception the program does not catch. */
  function Hash(fs: FileSystem, p: string, dev: Device): (h: Option<string>)
    ensures h.Some? <==> p in fs
    ensures h.Some? ==> h.value == dev.digest(fs[p])
  {
    if p in fs then Some(dev.digest(fs[p])) else None
  }

  /** `Directory.Exists(p)`: some file lies below `p`. */
  predicate DirectoryExists(fs: FileSystem, p: string)
  {
    exists q :: q in fs && p + "/" <= q
  }

  /** A file system where no file path is also a directory holding other files. */
  predicate WellFormed(fs: FileSystem)
  {
    forall p, q :: p in fs && q in fs ==> !(p + "/" <= q)
  }

  /** The report after `File.Delete(p)`: the program checks for a directory, not a file. */
  function DeletionReport(fs: FileSystem, p: string): (e: Event)
    ensures ReportsRemoval(e, p)
  {
    if !DirectoryExists(fs, p) then DeleteOld(p) else DeleteOldFailed(p)
  }

  /** The shared tail of both relocations: compare checksums and, when they agree,
      delete the source. */
  function Conclude(fs: FileSystem, src: string, dst: string, srcDigest: string, dstDigest: string,
                    events: seq<Event>): (r: Relocation)
    ensures events <= r.events && r.status != Crashed
    ensures r.status == Verified <==> dst in fs && srcDigest == dstDigest
    ensures r.fs == if r.status == Verified then fs - {src} else fs
  {
    if dst in fs then
      if srcDigest == dstDigest then
        var after := fs - {src};
        Relocation(after, events + [Success(srcDigest, dstDigest), DeletionReport(after, src)], Verified)
      else
        Relocation(fs, events + [DigestMismatch(srcDigest, dstDigest)], Mismatch)
    else
      Relocation(fs, events + [NewFileNotFound], DestMissing)
  }

  /** The archive branch: copy, then checksum the source, then the destination. */
  function ArchiveRelocate(fs: FileSystem, src: string, dst: string, dev: Device): (r: Relocation)
    ensures r.status != DestMissing
    ensures forall p :: p != src && p != dst ==> (p in r.fs <==> p in fs)
    ensures forall p :: p != src && p != dst && p in fs && p in r.fs ==> r.fs[p] == fs[p]
  {
    var copied := Copy(fs, src, dst, dev);
    var fs1 := if copied.Some? then copied.value else fs;
    var events := if copied.Some? then [] else [CopyFailed];
    var h1 := Hash(fs1, src, dev);
    var h2 := Hash(fs1, dst, dev);
    if h1.None? || h2.None? then Relocation(fs1, events, Crashed)
    else Conclude(fs1, src, dst, h1.value, h2.value, events)
  }

  /** The review branch: checksum the source, copy, then checksum the destination. */
  function ReviewRelocate(fs: FileSystem, src: string, dst: string, dev: Device): (r: Relocation)
    ensures r.status != DestMissing
    ensures forall p :: p != src && p != dst ==> (p in r.fs <==> p in fs)
    ensures forall p :: p != src && p != dst && p in fs && p in r.fs ==> r.fs[p] == fs[p]
  {
    var h1 := Hash(fs, src, dev);
    if h1.None? then Relocation(fs, [], Crashed)
    else
      var copied := Copy(fs, src, dst, dev);
      var fs1 := if copied.Some? then copied.value else fs;
      var events := if copied.Some? then [] else [MoveFailed];
      var h2 := Hash(fs1, dst, dev);
      if h2.None? then Relocation(fs1, events, Crashed)
      else Conclude(fs1, src, dst, h1.value, h2.value, events)
  }

  // ---------------------------------------------------------------------
  // Properties

  /** In a well-formed file system the deletion check always reports success. */
  lemma DeleteCheckAlwaysPasses(fs: FileSystem, p: string)
    requires WellFormed(fs) && p in fs
    ensures DeletionReport(fs - {p}, p) == DeleteOld(p)
  {
    if DirectoryExists(fs - {p}, p) {
      assert false;
    }
  }

  /** The deletion check ignores whether the file is still there. */
  lemma DeleteCheckIgnoresFile(fs: FileSystem, p: string, contents: Bytes)
    ensures DeletionReport(fs[p := contents], p) == DeletionReport(fs - {p}, p)
  {
    if DirectoryExists(fs[p := contents], p) {
      var q :| q in fs[p := contents] && p + "/" <= q;
      assert q != p;
      assert q in fs - {p};
    }
    if DirectoryExists(fs - {p}, p) {
      var q :| q in fs - {p} && p + "/" <= q;
      assert q in fs[p := contents];
    }
  }

  /** Crashes of the archive branch: a missing source, or a failed copy with no
      destination to checksum. */
  lemma ArchiveCrashes(fs: FileSystem, src: string, dst: string, dev: Device)
    ensures ArchiveRelocate(fs, src, dst, dev).status == Crashed <==>
              src !in fs || (dst !in fs && !dev.copyOk(src, dst))
  {
  }

  /** Crashes of the review branch, which are the archive branch's. */
  lemma ReviewCrashes(fs: FileSystem, src: string, dst: string, dev: Device)
    ensures ReviewRelocate(fs, src, dst, dev).status == Crashed <==>
              src !in fs || (dst !in fs && !dev.copyOk(src, dst))
  {
  }

  /** The safety property of both branches: the source disappears only when a
      destination holding contents with the source's checksum exists. */
  lemma SourceRemovedOnlyWhenVerified(fs: FileSystem, src: string, dst: string, dev: Device)
    requires src in fs && src != dst
    ensures var r := ArchiveRelocate(fs, src, dst, dev);
            src !in r.fs ==> r.status == Verified && dst in r.fs && dev.digest(r.fs[dst]) == dev.digest(fs[src])
    ensures var r := ReviewRelocate(fs, src, dst, dev);
            src !in r.fs ==> r.status == Verified && dst in r.fs && dev.digest(r.fs[dst]) == dev.digest(fs[src])
  {
  }

  /** A copy that succeeds makes both branches a move: the destination holds the
      source's contents and the source is gone. */
  lemma SuccessfulCopyMoves(fs: FileSystem, src: string, dst: string, dev: Device)
    requires src in fs && src != dst && dev.copyOk(src, dst)
    ensures ArchiveRelocate(fs, src, dst, dev) ==
              Relocation(fs[dst := fs[src]] - {src},
                         [Success(dev.digest(fs[src]), dev.digest(fs[src])), DeletionReport(fs[dst := fs[src]] - {src}, src)],
                         Verified)
    ensures ReviewRelocate(fs, src, dst, dev).fs == fs[dst := fs[src]] - {src}
    ensures ReviewRelocate(fs, src, dst, dev).status == Verified
  {
  }

  /** A failed copy onto an existing file with other contents leaves both files
      alone and reports the mismatch. */
  lemma FailedCopyKeepsFiles(fs: FileSystem, src: string, dst: string, dev: Device)
    requires src in fs && dst in fs && src != dst && !dev.copyOk(src, dst)
    requires dev.digest(fs[src]) != dev.digest(fs[dst])
    ensures ArchiveRelocate(fs, src, dst, dev) ==
              Relocation(fs, [CopyFailed, DigestMismatch(dev.digest(fs[src]), dev.digest(fs[dst]))], Mismatch)
    ensures ReviewRelocate(fs, src, dst, dev) ==
              Relocation(fs, [MoveFailed, DigestMismatch(dev.digest(fs[src]), dev.digest(fs[dst]))], Mismatch)
  {
  }

  /** A failed copy onto an existing file with the same checksum still deletes the
      source: the stale destination is taken for the copy. */
  lemma StaleDestinationAccepted(fs: FileSystem, src: string, dst: string, dev: Device)
    requires src in fs && dst in fs && src != dst && !dev.copyOk(src, dst)
    requires dev.digest(fs[src]) == dev.digest(fs[dst])
    ensures ArchiveRelocate(fs, src, dst, dev).status == Verified
    ensures ArchiveRelocate(fs, src, dst, dev).fs == fs - {src}
    ensures CopyFailed in ArchiveRelocate(fs, src, dst, dev).events
  {
  }

  /** Relocating a file onto its own path loses it: the copy fails, the two
      checksums are of one file, and the "original" is deleted. */
  lemma SelfRelocationLosesFile(fs: FileSystem, src: string, dev: Device)
    requires src in fs
    ensures ArchiveRelocate(fs, src, src, dev).status == Verified
    ensures ArchiveRelocate(fs, src, src, dev).fs == fs - {src}
    ensures ReviewRelocate(fs, src, src, dev).fs == fs - {src}
  {
  }

  /** When nothing but the program writes the source, hashing it before or after the
      copy makes no difference to the file system or the status: the copy never
      changes the source. */
  lemma HashOrderIrrelevant(fs: FileSystem, src: string, dst: string, dev: Device)
    ensures ArchiveRelocate(fs, src, dst, dev).fs == ReviewRelocate(fs, src, dst, dev).fs
    ensures ArchiveRelocate(fs, src, dst, dev).status == ReviewRelocate(fs, src, dst, dev).status
  {
  }
}

=== FILE: text.dfy ===
/** Small generic helpers shared by the model. */
module Wrappers {

  /** An optional value: the program's "" or missing-file cases become None. */
  datatype Option<+T> = None | Some(value: T)
}

/**
 * The string operations the program relies on, written over `string`
 * (a `seq<char>`): .NET's ordinal `Split(char)`, `Replace(char, char)`,
 * `ToLower()` on ASCII letters, `Contains(string)`, `Path.GetFileName`
 * on a Unix path, and `int.ToString()` for small non-negative numbers.
 */
module Text {

  /** The pieces of `s` between occurrences of `sep`, keeping empty pieces,
      as .NET's `string.Split(sep)` returns them. */
  function Split(s: string, sep: char): (parts: seq<string>)
    ensures |parts| >= 1
    decreases |s|
  {
    if |s| == 0 then [""]
    else
      var rest := Split(s[1..], sep);
      if s[0] == sep then [""] + rest
      else [[s[0]] + rest[0]] + rest[1..]
  }

  /** The pieces glued back together with `sep` between consecutive pieces. */
  function Join(parts: seq<string>, sep: char): (joined: string)
  {
    if |parts| == 0 then ""
    else if |parts| == 1 then parts[0]
    else parts[0] + [sep] + Join(parts[1..], sep)
  }

  /** The last piece of `Split(s, sep)`: for '.' the file extension, for '/' the file name. */
  function LastSegment(s: string, sep: char): (seg: string)
    ensures sep !in seg
  {
    var parts := Split(s, sep);
    SplitPiecesLackSeparator(s, sep);
    parts[|parts| - 1]
  }

  /** No piece of a split contains the separator. */
  lemma {:induction false} SplitPiecesLackSeparator(s: string, sep: char)
    ensures forall i :: 0 <= i < |Split(s, sep)| ==> sep !in Split(s, sep)[i]
    decreases |s|
  {
    if |s| > 0 {
      SplitPiecesLackSeparator(s[1..], sep);
      var rest := Split(s[1..], sep);
      if s[0] != sep {
        assert sep !in [s[0]] + rest[0];
      }
    }
  }

  lemma SplitWithoutSeparator(s: string, sep: char)
    requires sep !in s
    ensures Split(s, sep) == [s]
    decreases |s|
  {
    if |s| > 0 {
      SplitWithoutSeparator(s[1..], sep);
      assert [s[0]] + s[1..] == s;
    }
  }

  /** One step of `Split`, stated for a text given as its first character and the rest. */
  lemma SplitCons(c: char, t: string, sep: char)
    ensures Split([c] + t, sep) ==
            (if c == sep then [""] + Split(t, sep)
             else [[c] + Split(t, sep)[0]] + Split(t, sep)[1..])
  {
    assert ([c] + t)[0] == c;
    assert ([c] + t)[1..] == t;
  }

  /** Gluing a character onto the first piece commutes with appending more pieces. */
  lemma GlueHead(c: char, r: seq<string>, t: seq<string>)
    requires |r| >= 1
    ensures [[c] + (r + t)[0]] + (r + t)[1..] == ([[c] + r[0]] + r[1..]) + t
  {
    assert (r + t)[0] == r[0];
    assert (r + t)[1..] == r[1..] + t;
  }

  /** Splitting at one separator splits the text into the pieces of either side. */
  lemma {:induction false} SplitAtSeparator(x: string, sep: char, y: string)
    ensures Split(x + [sep] + y, sep) == Split(x, sep) + Split(y, sep)
    decreases |x|
  {
    if |x| == 0 {
      assert x + [sep] + y == [sep] + y;
      SplitCons(sep, y, sep);
    } else {
      var c, x' := x[0], x[1..];
      var tail := x' + [sep] + y;
      assert x == [c] + x';
      assert x + [sep] + y == [c] + tail;
      SplitAtSeparator(x', sep, y);
      SplitCons(c, tail, sep);
      SplitCons(c, x', sep);
      if c != sep {
        GlueHead(c, Split(x', sep), Split(y, sep));
      }
    }
  }

  /** The pieces with `y` appended to the last one. */
  function ExtendLast(pieces: seq<string>, y: string): (r: seq<string>)
    requires |pieces| >= 1
    ensures |r| == |pieces| && r[|r| - 1] == pieces[|pieces| - 1] + y
  {
    pieces[..|pieces| - 1] + [pieces[|pieces| - 1] + y]
  }

  /** Extending the last piece commutes with putting an empty piece in front. */
  lemma ExtendLastAfterEmpty(pieces: seq<string>, y: string)
    requires |pieces| >= 1
    ensures ExtendLast([""] + pieces, y) == [""] + ExtendLast(pieces, y)
  {
    assert ([""] + pieces)[..|pieces|] == [""] + pieces[..|pieces| - 1];
  }

  /** Extending the last piece commutes with gluing a character onto the first. */
  lemma ExtendLastAfterGlue(c: char, pieces: seq<string>, y: string)
    requires |pieces| >= 1
    ensures var e := ExtendLast(pieces, y);
            [[c] + e[0]] + e[1..] == ExtendLast([[c] + pieces[0]] + pieces[1..], y)
  {
    var e := ExtendLast(pieces, y);
    var g := [[c] + pieces[0]] + pieces[1..];
    if |pieces| == 1 {
      assert [c] + (pieces[0] + y) == ([c] + pieces[0]) + y;
    } else {
      assert e[0] == pieces[0];
      assert e[1..] == pieces[1..|pieces| - 1] + [pieces[|pieces| - 1] + y];
      assert g[..|g| - 1] == [[c] + pieces[0]] + pieces[1..|pieces| - 1];
    }
  }

  /** Appending text without separators only lengthens the last piece. */
  lemma {:induction false} SplitAppendTail(x: string, sep: char, y: string)
    requires sep !in y
    ensures Split(x + y, sep) == ExtendLast(Split(x, sep), y)
    decreases |x|
  {
    if |x| == 0 {
      assert x + y == y;
      SplitWithoutSeparator(y, sep);
    } else {
      var c, x' := x[0], x[1..];
      assert x == [c] + x';
      assert x + y == [c] + (x' + y);
      SplitCons(c, x' + y, sep);
      SplitCons(c, x', sep);
      SplitAppendTail(x', sep, y);
      if c == sep {
        ExtendLastAfterEmpty(Split(x', sep), y);
      } else {
        ExtendLastAfterGlue(c, Split(x', sep), y);
      }
    }
  }


  /** Round trip one way: joining the pieces of a split gives the text back. */
  lemma {:induction false} JoinSplit(s: string, sep: char)
    ensures Join(Split(s, sep), sep) == s
    decreases |s|
  {
    if sep !in s {
      SplitWithoutSeparator(s, sep);
    } else {
      var i :| 0 <= i < |s| && s[i] == sep;
      var k := FirstIndex(s, sep);
      var x, y := s[..k], s[k + 1..];
      assert s == x + [sep] + y;
      SplitAtSeparator(x, sep, y);
      SplitWithoutSeparator(x, sep);
      JoinSplit(y, sep);
      assert Split(s, sep) == [x] + Split(y, sep);
      assert (Split(s, sep))[1..] == Split(y, sep);
    }
  }

  /** Round trip the other way: splitting a join of separator-free pieces gives the pieces. */
  lemma {:induction false} SplitJoin(parts: seq<string>, sep: char)
    requires |parts| >= 1
    requires forall i :: 0 <= i < |parts| ==> sep !in parts[i]
    ensures Split(Join(parts, sep), sep) == parts
    decreases |parts|
  {
    if |parts| == 1 {
      SplitWithoutSeparator(parts[0], sep);
    } else {
      SplitJoin(parts[1..], sep);
      SplitAtSeparator(parts[0], sep, Join(parts[1..], sep));
      SplitWithoutSeparator(parts[0], sep);
      assert [parts[0]] + parts[1..] == parts;
    }
  }

  /** Position of the first `c` in `s`. */
  function FirstIndex(s: string, c: char): (k: nat)
    requires c in s
    ensures k < |s| && s[k] == c && c !in s[..k]
  {
    if s[0] == c then 0 else FirstIndex(s[1..], c) + 1
  }

  /** The last piece after a separator is exactly the text following it. */
  lemma LastSegmentAfterSeparator(x: string, sep: char, y: string)
    requires sep !in y
    ensures LastSegment(x + [sep] + y, sep) == y
  {
    SplitAtSeparator(x, sep, y);
    SplitWithoutSeparator(y, sep);
  }

  /** Text without separators appended at the end extends the last piece. */
  lemma LastSegmentAppend(x: string, sep: char, y: string)
    requires sep !in y
    ensures LastSegment(x + y, sep) == LastSegment(x, sep) + y
  {
    SplitAppendTail(x, sep, y);
  }

  /** One step of `Join`: the first piece, a separator, then the rest joined. */
  lemma JoinCons(a: string, rest: seq<string>, sep: char)
    requires |rest| >= 1
    ensures Join([a] + rest, sep) == a + [sep] + Join(rest, sep)
  {
    assert ([a] + rest)[1..] == rest;
  }

  /** Five pieces joined, written out. */
  lemma JoinFive(a: string, b: string, c: string, d: string, e: string, sep: char)
    ensures Join([a, b, c, d, e], sep) == a + [sep] + b + [sep] + c + [sep] + d + [sep] + e
  {
    JoinCons(d, [e], sep);
    assert [d, e] == [d] + [e];
    JoinCons(c, [d, e], sep);
    assert [c, d, e] == [c] + [d, e];
    JoinCons(b, [c, d, e], sep);
    assert [b, c, d, e] == [b] + [c, d, e];
    JoinCons(a, [b, c, d, e], sep);
    assert [a, b, c, d, e] == [a] + [b, c, d, e];
  }

  /** Six pieces joined, written out. */
  lemma JoinSix(a: string, b: string, c: string, d: string, e: string, f: string, sep: char)
    ensures Join([a, b, c, d, e, f], sep) == a + [sep] + b + [sep] + c + [sep] + d + [sep] + e + [sep] + f
  {
    JoinFive(b, c, d, e, f, sep);
    JoinCons(a, [b, c, d, e, f], sep);
    assert [a, b, c, d, e, f] == [a] + [b, c, d, e, f];
  }

  /** Every string ends with its last piece, and the piece is preceded by a separator
      unless it is the whole string. */
  lemma {:induction false} LastSegmentIsSuffix(s: string, sep: char)
    ensures var seg := LastSegment(s, sep);
            |seg| <= |s| && s[|s| - |seg|..] == seg
    ensures var seg := LastSegment(s, sep);
            |seg| == |s| || s[|s| - |seg| - 1] == sep
  {
    JoinSplit(s, sep);
    JoinEndsWithLast(Split(s, sep), sep);
  }

  lemma {:induction false} JoinEndsWithLast(parts: seq<string>, sep: char)
    requires |parts| >= 1
    ensures var j := Join(parts, sep);
            var last := parts[|parts| - 1];
            |last| <= |j| && j[|j| - |last|..] == last
    ensures var j := Join(parts, sep);
            var last := parts[|parts| - 1];
            |last| == |j| || j[|j| - |last| - 1] == sep
    decreases |parts|
  {
    if |parts| > 1 {
      JoinEndsWithLast(parts[1..], sep);
      var j := Join(parts, sep);
      var rest := Join(parts[1..], sep);
      assert j == (parts[0] + [sep]) + rest;
      var last := parts[|parts| - 1];
      assert parts[1..][|parts[1..]| - 1] == last;
      assert j[|j| - |last|..] == rest[|rest| - |last|..];
      if |last| < |rest| {
        assert j[|j| - |last| - 1] == rest[|rest| - |last| - 1];
      } else {
        assert j[|j| - |last| - 1] == sep;
      }
    }
  }

  // ---------------------------------------------------------------------
  // Case folding (ASCII letters only)

  predicate IsUpper(c: char) { 'A' <= c <= 'Z' }

  predicate IsLetter(c: char) { IsUpper(c) || 'a' <= c <= 'z' }

  function LowerChar(c: char): (d: char)
    ensures !IsUpper(d)
    ensures IsUpper(c) <==> d != c
  {
    if IsUpper(c) then (c as int + 32) as char else c
  }

  /** The text with every ASCII capital replaced by its small letter. */
  function Lower(s: string): (r: string)
    ensures |r| == |s|
    ensures forall i :: 0 <= i < |s| ==> r[i] == LowerChar(s[i])
    decreases |s|
  {
    if |s| == 0 then "" else [LowerChar(s[0])] + Lower(s[1..])
  }

  lemma LowerConcat(a: string, b: string)
    ensures Lower(a + b) == Lower(a) + Lower(b)
  {
  }

  lemma LowerIdempotent(s: string)
    ensures Lower(Lower(s)) == Lower(s)
  {
  }

  /** `lowered` is `pieces` with every piece lower-cased. */
  predicate LoweredPieces(lowered: seq<string>, pieces: seq<string>)
  {
    |lowered| == |pieces| && forall i :: 0 <= i < |pieces| ==> lowered[i] == Lower(pieces[i])
  }

  /** Gluing a character onto the first piece keeps the pieces lower-cased pairwise. */
  lemma GlueLowered(c: char, lowered: seq<string>, pieces: seq<string>)
    requires |pieces| >= 1 && LoweredPieces(lowered, pieces)
    ensures LoweredPieces([[LowerChar(c)] + lowered[0]] + lowered[1..], [[c] + pieces[0]] + pieces[1..])
  {
    LowerConcat([c], pieces[0]);
  }

  /** Lower-casing commutes with splitting on a character that is not a letter. */
  lemma {:induction false} SplitLower(s: string, sep: char)
    requires !IsLetter(sep)
    ensures LoweredPieces(Split(Lower(s), sep), Split(s, sep))
    decreases |s|
  {
    if |s| > 0 {
      var c, t := s[0], s[1..];
      assert s == [c] + t;
      assert Lower(s) == [LowerChar(c)] + Lower(t);
      SplitCons(c, t, sep);
      SplitCons(LowerChar(c), Lower(t), sep);
      SplitLower(t, sep);
      if c != sep {
        assert LowerChar(c) != sep;
        GlueLowered(c, Split(Lower(t), sep), Split(t, sep));
      } else {
        assert LowerChar(c) == sep;
      }
    }
  }

  /** The last piece of the lower-cased text is the lower-cased last piece. */
  lemma LastSegmentLower(s: string, sep: char)
    requires !IsLetter(sep)
    ensures LastSegment(Lower(s), sep) == Lower(LastSegment(s, sep))
  {
    SplitLower(s, sep);
  }

  // ---------------------------------------------------------------------
  // Character replacement

  /** .NET's `Replace(from, to)` on single characters. */
  function ReplaceChar(s: string, from: char, to: char): (r: string)
    ensures |r| == |s|
    ensures forall i :: 0 <= i < |s| ==> r[i] == (if s[i] == from then to else s[i])
    decreases |s|
  {
    if |s| == 0 then ""
    else [if s[0] == from then to else s[0]] + ReplaceChar(s[1..], from, to)
  }

  /** Replacing a character that does not occur leaves the text unchanged. */
  lemma ReplaceCharAbsent(s: string, from: char, to: char)
    requires from !in s
    ensures ReplaceChar(s, from, to) == s
  {
  }

  /** After a replacement the replaced character is gone, so a second replacement does nothing. */
  lemma ReplaceCharIdempotent(s: string, from: char, to: char)
    requires from != to
    ensures from !in ReplaceChar(s, from, to)
    ensures ReplaceChar(ReplaceChar(s, from, to), from, to) == ReplaceChar(s, from, to)
  {
    var r := ReplaceChar(s, from, to);
    assert forall i :: 0 <= i < |r| ==> r[i] != from;
    ReplaceCharAbsent(r, from, to);
  }

  // ---------------------------------------------------------------------
  // Substring test

  /** Ordinal `s.Contains(sub)`. */
  predicate Contains(s: string, sub: string)
  {
    exists i :: 0 <= i <= |s| - |sub| && sub <= s[i..]
  }

  lemma ContainsPrefix(sub: string, rest: string)
    ensures Contains(sub + rest, sub)
  {
    assert sub <= (sub + rest)[0..];
  }

  // ---------------------------------------------------------------------
  // Decimal rendering

  predicate IsDigit(c: char) { '0' <= c <= '9' }

  predicate AllDigits(s: string) { forall i :: 0 <= i < |s| ==> IsDigit(s[i]) }

  function DigitChar(d: nat): (c: char)
    requires d < 10
    ensures IsDigit(c) && c as int - '0' as int == d
  {
    ('0' as int + d) as char
  }

  /** The number a string of decimal digits denotes. */
  function DigitsValue(s: string): (value: nat)
    requires AllDigits(s)
    decreases |s|
  {
    if |s| == 0 then 0
    else DigitsValue(s[..|s| - 1]) * 10 + (s[|s| - 1] as int - '0' as int)
  }

  /** `n.ToString()` for a non-negative `int`: no leading zero, denotes `n`. */
  function NatToString(n: nat): (s: string)
    ensures 1 <= |s| && AllDigits(s)
    ensures |s| == 1 <==> n < 10
    ensures DigitsValue(s) == n
    decreases n
  {
    if n < 10 then [DigitChar(n)]
    else
      var s := NatToString(n / 10) + [DigitChar(n % 10)];
      assert s[..|s| - 1] == NatToString(n / 10);
      s
  }

  /** A leading zero does not change the value denoted. */
  lemma {:induction false} LeadingZero(s: string)
    requires AllDigits(s)
    ensures AllDigits("0" + s) && DigitsValue("0" + s) == DigitsValue(s)
    decreases |s|
  {
    if |s| > 0 {
      var t := "0" + s;
      assert t[..|t| - 1] == "0" + s[..|s| - 1];
      LeadingZero(s[..|s| - 1]);
    }
  }

  // ---------------------------------------------------------------------
  // Lists of strings

  /** .NET's `List<string>.IndexOf`: the first position of `x`, or -1. */
  function IndexOf(xs: seq<string>, x: string): (k: int)
    ensures -1 <= k < |xs|
    ensures k == -1 <==> x !in xs
    ensures 0 <= k ==> xs[k] == x && x !in xs[..k]
    decreases |xs|
  {
    if |xs| == 0 then -1
    else if xs[0] == x then 0
    else
      var k := IndexOf(xs[1..], x);
      if k == -1 then -1
      else
        assert xs[..k + 1] == [xs[0]] + xs[1..][..k];
        k + 1
  }
}
